=== FILE: README.md ===
# pydict2latex in Dafny

`PyDictToLatex` turns a (possibly nested) Python dictionary into LaTeX.
Every mapping node becomes one single-argument macro. The macro's body is a
chain of `\ifnum\pdfstrcmp{#1}{key}=0` tests. A scalar key prints the value.
A nested-mapping key pre-expands `\expandafter` 2^k - 1 times (through the
`\@replicate` helper of the preamble) and then hands over to the child's
macro `name@i…i`, which reads the next argument. So `\data{sub dict}{b}`
yields the value stored at `["sub dict"]["b"]`. Optionally a comment block
lists every call, with the keys of one argument merged into `a/b` groups
where that makes the list shorter.

This project models that core as pure functions over immutable data:

| module | what it models |
|---|---|
| `Results` | `Option` and `Result`, for absent keys and the error of `generate_doc` |
| `Text` | joining and splitting strings, `"i" * k`, decimal `str(n)` and its inverse |
| `Tree` | the input: ordered mappings of string keys to scalars (already `str`-ed) or nested mappings, dictionary access by a key list |
| `Compiler` | `dict_to_tex_cmds` as structured definitions (name, arity, ordered `(key, action)` branches), its loop as a fold, and a closed form of that loop |
| `Dispatch` | what calling the generated root macro with a list of arguments selects: name resolution among the definitions and first-match dispatch among the branches |
| `Emitter` | `tex_strcmp`, `tex_define_cmd` and the text of every definition, with parsers that read that text back |
| `Paths` | `generate_all_cases`: the access paths, one argument group per key |
| `Factorize` | `factorize_cases`: the pop/scan/merge/remove pass, as a function and as a method with loops |
| `Documentation` | `generate_doc`: passes for index 0 to the longest path, then one comment line per path |
| `Converter` | `__init__` (header, commands, footer) and `__repr__` |
| `Scenarios` | the class's own usage example, a two-twin mapping, and mappings without scalars, worked out in full |

The main results are these:

- Calling the compiled root macro with a key list gives exactly what
  indexing the dictionary with those keys gives (`Dispatch.CompiledLookup`).
- The documentation lists exactly the calls that produce a value
  (`Documentation.DocumentedCallsResolve`).
- The documentation describes as many calls, counted with multiplicity, as
  there are scalars (`Documentation.DocumentedCallCount`). For a real
  dictionary, each valid call is described by exactly one line, and no
  other call by any (`Documentation.DocumentedOnce`).
- A factorization pass keeps the set of described calls
  (`Factorize.PassCovers`) and their number (`Factorize.PassWeight`).
- Every generated definition's text reads back as its name, arity and body
  text (`Emitter.ParseDefineCmdRoundTrip`, `Emitter.CompiledTextParses`),
  and each branch text reads back as its key and content
  (`Emitter.ParseStrCmpRoundTrip`).

Details of the code that the model follows:

- A macro body lists the scalar branches first, in declaration order, and
  then the redirections, most recently discovered first (py2tex.py:181).
- The definitions of nested mappings are appended in discovery order
  (py2tex.py:172).
- When two paths merge, the group of the path taken off the end of the list
  comes first (py2tex.py:109, 113 and 116). So `{"a": {"x": 1}, "b": {"x": 1}}`
  is documented as `\d{b/a}{x}` (`Scenarios.TwinsDoc`).
- `generate_doc` on a mapping without any scalar, at any depth, calls `max`
  on an empty sequence, which raises `ValueError` (py2tex.py:130). The model
  returns `Err(NoScalar)` (`Documentation.GenerateDocFails`). The constructor
  propagates that error when documentation is requested.

## Model

| member | source | states |
|---|---|---|
| Text.Repeat | pydict2latex/py2tex.py:171 | `"i" * k` has length k and every character is `i` |
| Text.ParseNatToString | pydict2latex/py2tex.py:173 | the decimal text `str(n)` of the expansion count reads back as n |
| Tree.LeafPathIffGet | pydict2latex/py2tex.py:17-19 | for a dictionary (unique keys), a key list leads to a scalar exactly when indexing with it yields a value |
| Paths.CasesMember | pydict2latex/py2tex.py:92-98 | a path is among the cases of the first i pairs iff it starts at one of them: the key alone for a scalar, or the key followed by a path of the nested mapping |
| Paths.EnumerateLeafPaths | pydict2latex/py2tex.py:86-100 | the one-key-per-argument path of a key list is enumerated iff that key list reaches a scalar |
| Paths.EnumerateSingletons | pydict2latex/py2tex.py:96-98 | every enumerated path is non-empty and has exactly one key per argument |
| Paths.CasesCount | pydict2latex/py2tex.py:86-100 | there are exactly as many enumerated paths as scalars, nested ones included |
| Factorize.RemoveFirst | pydict2latex/py2tex.py:117 | `list.remove` takes out exactly one occurrence: the multiset loses that element once and the length drops by one |
| Factorize.RemoveFirstAt | pydict2latex/py2tex.py:117 | `list.remove` drops the first occurrence of the element and keeps every other element in its place and order |
| Factorize.Scan | pydict2latex/py2tex.py:110-117 | the inner loop leaves a sub-multiset of the working list, never longer |
| Factorize.Pass | pydict2latex/py2tex.py:108-122 | a pass never returns more paths than it was given |
| Factorize.ScanUnfold | pydict2latex/py2tex.py:112-117 | one inner iteration pops the last candidate, which is still in the working list; a mergeable candidate is merged into the anchor and removed from the list, and any other candidate is skipped |
| Factorize.ScanCandidates | pydict2latex/py2tex.py:110-117 | the inner `while` loop over a copy of the list computes the merged anchor and the remaining list as the recursive scan does |
| Factorize.FactorizeCases | pydict2latex/py2tex.py:102-122 | the nested loops compute the functional pass |
| Factorize.MergeShape | pydict2latex/py2tex.py:115-116 | a merge keeps the path's length, joins the two groups at the index anchor-first, and the two paths agree everywhere else |
| Factorize.MergeGrows | pydict2latex/py2tex.py:116 | the merged path extends the anchor's group at the index and keeps every other group |
| Factorize.ScanGrows | pydict2latex/py2tex.py:112-117 | after the scan the anchor has only grown at the index |
| Factorize.PassShape | pydict2latex/py2tex.py:108-122 | every path a pass outputs grew at the index from a path it was given |
| Factorize.MergeCovers | pydict2latex/py2tex.py:115-116 | a merged path describes exactly the calls of the anchor and of the candidate |
| Factorize.ScanCovers | pydict2latex/py2tex.py:112-117 | anchor plus working list describe the same calls before and after the scan |
| Factorize.PassCovers | pydict2latex/py2tex.py:108-122 | a pass describes exactly the calls its input describes |
| Factorize.MergeWeight | pydict2latex/py2tex.py:115-116 | the number of calls a merged path describes is the sum of the two paths' numbers |
| Factorize.TotalWeightRemoveFirst | pydict2latex/py2tex.py:117 | removing a path removes exactly its calls from the total |
| Factorize.ScanWeight | pydict2latex/py2tex.py:112-117 | the scan keeps the total number of described calls |
| Factorize.PassWeight | pydict2latex/py2tex.py:108-122 | a pass keeps the total number of described calls |
| Factorize.ScanCount | pydict2latex/py2tex.py:110-117 | the inner loop never leaves a call covered by more of its paths than before, because a merge covers only what its two paths covered |
| Factorize.PassCount | pydict2latex/py2tex.py:108-122 | a pass never describes a call by more paths than its input did |
| Factorize.PassNoFold | pydict2latex/py2tex.py:108-122 | when no later path can absorb an earlier one, a pass only reverses the list |
| Factorize.PassShort | pydict2latex/py2tex.py:115 | an index beyond every path's last argument merges nothing, and the pass reverses the list |
| Documentation.MaxLength | pydict2latex/py2tex.py:130 | the depth bounds every path's length and is the length of some path |
| Documentation.DocStartsWithTitle | pydict2latex/py2tex.py:137 | the documentation opens with the line `% How to use:` |
| Documentation.GenerateDocFails | pydict2latex/py2tex.py:129-130 | documentation fails exactly when the mapping holds no scalar |
| Documentation.PassesCover | pydict2latex/py2tex.py:132-133 | the sequence of passes keeps the described calls |
| Documentation.EnumerateCovers | pydict2latex/py2tex.py:129 | the enumerated paths describe exactly the key lists that reach a scalar |
| Documentation.DocumentedCalls | pydict2latex/py2tex.py:128-133 | the factorized paths describe exactly the key lists that reach a scalar |
| Documentation.DocumentedCallsResolve | pydict2latex/py2tex.py:124-133 | a call is described by the documentation iff the compiled root macro answers it with a value |
| Documentation.PassesWeight | pydict2latex/py2tex.py:132-133 | the passes keep the total number of described calls |
| Documentation.EnumeratedWeight | pydict2latex/py2tex.py:129 | each enumerated path describes exactly one call |
| Documentation.DocumentedCallCount | pydict2latex/py2tex.py:128-133 | the factorized documentation describes as many calls, with multiplicity, as there are scalars |
| Documentation.CasesCountOnce | pydict2latex/py2tex.py:86-100 | for a mapping with unique keys at every level, the enumerated paths cover each call at most once |
| Documentation.DocumentedOnce | pydict2latex/py2tex.py:124-133 | for a mapping with unique keys at every level, each valid access path is described by exactly one factorized path, and any other key list by none |
| Documentation.UsageLinesJoin | pydict2latex/py2tex.py:137-143 | the usage text is the usage lines joined by newlines, ending with a newline |
| Documentation.DocLines | pydict2latex/py2tex.py:136-145 | if no key or name holds a newline, the documentation reads line by line as the title, one line per path in order, and an empty rest |
| Compiler.RedirectionAt | pydict2latex/py2tex.py:171-177 | the j-th nested mapping's redirection sits j places from the end (the first discovered is last), matches that mapping's key, and expands 2^(j+1) - 1 times before calling `name@` followed by j+1 `i`s |
| Compiler.ClosedStep | pydict2latex/py2tex.py:169-179 | one more pair advances the closed form exactly as one iteration of the loop does |
| Compiler.LoopClosedForm | pydict2latex/py2tex.py:165-179 | the loop started on the closed form of a prefix ends in the closed form of the whole mapping |
| Compiler.CompileShape | pydict2latex/py2tex.py:160-181 | the definitions are the nested mappings' blocks in discovery order, then the mapping's own macro with its scalar branches followed by its redirections |
| Compiler.NestedMapsMember | pydict2latex/py2tex.py:169-172 | the nested mappings compiled are exactly the mapping-valued pairs |
| Compiler.LeafCasesMember | pydict2latex/py2tex.py:178-179 | the scalar branches are exactly the scalar pairs, each printing its value |
| Compiler.NestedMapsDistinct | pydict2latex/py2tex.py:169-171 | distinct keys give nested mappings with distinct keys |
| Compiler.ChildStem | pydict2latex/py2tex.py:171 | a name below a child's name extends the parent's name and is longer |
| Compiler.ChildTail | pydict2latex/py2tex.py:171 | if the part of a name after a child's name is all `@` and `i`, so is the part after the parent's name |
| Compiler.SubDefinitionBlock | pydict2latex/py2tex.py:172 | every sub-definition comes from the block of one nested mapping |
| Compiler.CompileNameStem | pydict2latex/py2tex.py:171-181 | every generated name is the root name followed only by `@`s and `i`s, only the root's own definition carries the root name exactly, and every definition takes one argument |
| Compiler.BlockNamesDisjoint | pydict2latex/py2tex.py:171-172 | no two nested mappings' blocks share a macro name |
| Compiler.DefinitionCount | pydict2latex/py2tex.py:160-181 | one definition per mapping node, the root included |
| Dispatch.FindDefinition | pydict2latex/py2tex.py:181 | name resolution finds a definition with that name iff one exists |
| Dispatch.FindCase | pydict2latex/py2tex.py:148-152 | the branch chain answers a key iff some branch tests for it, and then with that branch's action |
| Dispatch.FindRoot | pydict2latex/py2tex.py:181 | among a mapping's definitions, its name resolves to its own macro |
| Dispatch.FindInBlock | pydict2latex/py2tex.py:172 | within all the blocks, a child's names resolve as in the child's own block |
| Dispatch.ResolvesChild | pydict2latex/py2tex.py:172-181 | the whole list of definitions resolves every name of a child block as that block does |
| Dispatch.RedirectionSource | pydict2latex/py2tex.py:169-177 | each redirection comes from a mapping-valued pair with its key, its expansion count and its child name |
| Dispatch.CaseSource | pydict2latex/py2tex.py:169-181 | every branch of the root macro comes from the pair with its key: printing branches from scalars, with their value, and redirections from nested mappings |
| Dispatch.RootCaseMissing | pydict2latex/py2tex.py:169-181 | a key absent from the mapping matches no branch |
| Dispatch.RootCaseLeaf | pydict2latex/py2tex.py:178-179 | with distinct keys, a scalar's key selects the branch printing its value |
| Dispatch.RootCaseBranch | pydict2latex/py2tex.py:170-177 | with distinct keys, a nested mapping's key selects its redirection |
| Dispatch.LookupResolved | pydict2latex/py2tex.py:160-181 | any definitions that resolve the compiled names as compiled answer every call as dictionary indexing does |
| Dispatch.CompiledLookup | pydict2latex/py2tex.py:17-19 | calling the root macro with a key list gives exactly what indexing the dictionary with that key list gives |
| Dispatch.CompiledLookupDefinedIff | pydict2latex/py2tex.py:17-19 | the root macro answers a call with a value iff the key list reaches a scalar |
| Emitter.RootText | pydict2latex/py2tex.py:177-181 | the last text is the root's one-argument `\newcommand`, whose body is its scalar branches followed by its redirections |
| Emitter.CompiledTextParses | pydict2latex/py2tex.py:154-158 | for a root name without `[`, every generated text reads back as its definition's name, the argument count 1 and its rendered branches |
| Emitter.ParseStrCmpRoundTrip | pydict2latex/py2tex.py:148-152 | a `tex_strcmp` branch on `#1` reads back as its key and content when the key has no `}` |
| Emitter.ParseDefineCmdRoundTrip | pydict2latex/py2tex.py:154-158 | a `tex_define_cmd` text reads back as its name, argument count and content when the name has no `[` |
| Emitter.ExpandaftersInjective | pydict2latex/py2tex.py:173 | different expansion counts give different `\@replicate` texts |
| Emitter.RedirectionText | pydict2latex/py2tex.py:171-177 | the j-th nested mapping's branch text tests its key, replicates `\expandafter` 2^(j+1) - 1 times and calls its child macro |
| Converter.New | pydict2latex/py2tex.py:80-84 | construction fails only when documentation is asked for and cannot be made; the commands are the compiled texts, the footer is `\makeatother`, and the header is the preamble, with the documentation and a newline in front when asked |
| Converter.ReprFrame | pydict2latex/py2tex.py:183-187 | the text starts with `% How to use:` when documented, else with the preamble, and always ends with `\makeatother` |
| Scenarios.UsageCallScalar | pydict2latex/py2tex.py:18 | `\data{foo}` gives `bar` |
| Scenarios.UsageCallNested | pydict2latex/py2tex.py:19 | `\data{sub dict}{b}` gives `42` |
| Scenarios.UsageCallShort | pydict2latex/py2tex.py:17-19 | `\data{sub dict}` alone gives no value |
| Scenarios.UsageDefinitions | pydict2latex/py2tex.py:160-181 | the usage dictionary compiles to `data@i` and then `data`, whose redirection expands once |
| Scenarios.UsageCases | pydict2latex/py2tex.py:86-100 | the usage dictionary has the three paths foo, sub dict/a and sub dict/b, in that order |
| Scenarios.UsageFirstPass | pydict2latex/py2tex.py:108-122 | the pass at index 0 merges nothing and reverses the paths |
| Scenarios.UsageSecondPass | pydict2latex/py2tex.py:108-122 | the pass at index 1 merges a and b under sub dict |
| Scenarios.UsageFactorized | pydict2latex/py2tex.py:128-133 | the usage dictionary factorizes to foo and sub dict with {a/b} |
| Scenarios.UsageDoc | pydict2latex/py2tex.py:124-145 | the usage documentation is the title, `% \data{foo}` and `% \data{sub dict}{a/b}` |
| Scenarios.TwinsFactorized | pydict2latex/py2tex.py:108-122 | two nested mappings with the same single path merge into one path whose first group is b then a |
| Scenarios.TwinsDoc | pydict2latex/py2tex.py:124-145 | that mapping is documented as `% \d{b/a}{x}` |
| Scenarios.NoScalar | pydict2latex/py2tex.py:130 | an empty mapping, and one holding only an empty mapping, have no documentation, though the latter still compiles to two macros |

## Left out

- The `\@replicate` preamble (py2tex.py:23-78) is fixed TeX text. The model takes it as the parameter `preamble` of `Converter.New`.
- TeX itself is not modelled: expansion, `\expandafter`, `\pdfstrcmp`, `\romannumeral`, macro arguments. `Dispatch.Lookup` stands for a call of the root macro. It resolves a macro name among the definitions, takes the first branch whose key equals the argument, and either yields that branch's value or moves on to the named child with the remaining arguments. The expansion count 2^k - 1 is modelled and proved to be what each redirection carries. That this count is the one TeX needs to close the pending `\fi`s is not proved.
- `save` (py2tex.py:189-194) writes to a file, which is I/O.
- `str(value)` of non-string scalars (py2tex.py:179) is taken as already applied: scalars are strings in `Tree.Node`.
- Keys are strings. Non-string dictionary keys, and keys or values holding TeX-special characters, are out of scope. The source does not escape them either.
- Python dictionaries have unique keys. Lemmas that relate macro calls to dictionary access assume this as `Tree.UniqueKeys`. The compiler itself works on any ordered pair list.
- `factorize_cases` empties the list it is given (py2tex.py:109), a side effect on the caller's list. The model is pure, and `generate_doc` never reads that list again.
- The `parameters` list of `generate_all_cases` (py2tex.py:90, 98) is always empty, so it is left out.
- variables2dict.py (histogram and category-count helpers), setup.py and test.py are not part of this model.
- Emitter.ParseStrCmpRoundTrip: holds only for keys without `}`, since a key holding `}` makes the text ambiguous.
- Emitter.ParseDefineCmdRoundTrip: holds only for names without `[`, for the same reason.
- Emitter.CompiledTextParses: holds only for root names without `[`, for the same reason.
- Documentation.DocLines: holds only when no key and not the name holds a newline, since such a key would split a usage line.

=== FILE: compiler.dfy ===
/** The macro-tree compiler: turns a mapping into one single-argument macro
    definition per mapping node. Definitions are kept as structured data
    (name, ordered dispatch cases); their text is produced by `Emitter`. */
module Compiler {
  import opened Text
  import opened Tree

  /** What a dispatch case does when its key matches the call argument:
      produce a scalar's text, or pre-expand `expandafters` times and then
      hand over to the macro `target`. */
  datatype Action = Emit(text: string) | Redirect(expandafters: nat, target: string)

  /** One `\pdfstrcmp` branch of a macro body. */
  datatype Case = Case(key: string, action: Action)

  /** One `\newcommand`: its name, its number of arguments and its branches. */
  datatype Definition = Definition(name: string, arity: nat, cases: seq<Case>)

  /** The local variables of the loop over the mapping's pairs. */
  datatype LoopState = LoopState(
    leaves: seq<Case>,
    redirections: seq<Case>,
    subDefinitions: seq<Definition>,
    expandafters: nat)

  const Start := LoopState([], [], [], 1)

  /** Name of the k-th nested mapping of `name` (k counted from 1). */
  function ChildName(name: string, k: nat): (r: string)
  {
    name + "@" + Repeat('i', k)
  }

  /** The definitions for mapping `es` under macro name `name`, descendants
      first and the mapping's own definition last. */
  function Compile(name: string, es: seq<Entry>): (defs: seq<Definition>)
    decreases Branch(es), |es| + 1
  {
    var st := Loop(name, es, 0, Start);
    st.subDefinitions + [Definition(name, 1, st.leaves + st.redirections)]
  }

  /** The loop over the pairs of `es`, from pair `i` on, in state `st`. */
  function Loop(name: string, es: seq<Entry>, i: nat, st: LoopState): (r: LoopState)
    requires i <= |es|
    decreases Branch(es), |es| - i
  {
    if i == |es| then st
    else Loop(name, es, i + 1, Step(name, st, es[i].0, es[i].1))
  }

  /** One iteration of the loop: a scalar adds a branch to the leaves; a
      nested mapping is compiled under a fresh name, gets a redirection in
      front of the earlier ones, and doubles-plus-one the expansion count. */
  function Step(name: string, st: LoopState, key: string, value: Node): (r: LoopState)
    decreases value
  {
    match value
    case Leaf(s) =>
      st.(leaves := st.leaves + [Case(key, Emit(s))])
    case Branch(ces) =>
      var childName := ChildName(name, |st.redirections| + 1);
      LoopState(
        st.leaves,
        [Case(key, Redirect(st.expandafters, childName))] + st.redirections,
        st.subDefinitions + Compile(childName, ces),
        2 * st.expandafters + 1)
  }

  // ---------------------------------------------------------------------
  // A closed form of the loop, used as the reference definition.
  // ---------------------------------------------------------------------

  function Pow2(n: nat): (r: nat)
    ensures r >= 1
  {
    if n == 0 then 1 else 2 * Pow2(n - 1)
  }

  /** The nested mappings among the pairs of `es`, in discovery order. */
  function NestedMaps(es: seq<Entry>): (r: seq<(string, seq<Entry>)>)
  {
    if |es| == 0 then []
    else
      var rest := NestedMaps(es[..|es| - 1]);
      match es[|es| - 1].1
      case Leaf(_) => rest
      case Branch(ces) => rest + [(es[|es| - 1].0, ces)]
  }

  /** The branch of every scalar of `es`, in declaration order. */
  function LeafCases(es: seq<Entry>): (r: seq<Case>)
  {
    if |es| == 0 then []
    else
      var rest := LeafCases(es[..|es| - 1]);
      match es[|es| - 1].1
      case Leaf(s) => rest + [Case(es[|es| - 1].0, Emit(s))]
      case Branch(_) => rest
  }

  /** The redirection branches for the nested mappings `subs` of macro
      `name`: the k-th one (from 1) goes to `ChildName(name, k)` after
      2^k - 1 expansions, and the last discovered comes first. */
  function Redirections(name: string, subs: seq<(string, seq<Entry>)>): (r: seq<Case>)
    ensures |r| == |subs|
  {
    if |subs| == 0 then []
    else
      var k := |subs|;
      var rest := Redirections(name, subs[..k - 1]);
      [Case(subs[k - 1].0, Redirect(Pow2(k) - 1, ChildName(name, k)))] + rest
  }

  /** The redirection of the j-th nested mapping (from 0) sits j places
      from the end: it goes to `ChildName(name, j + 1)` after 2^(j+1) - 1
      expansions. */
  lemma {:induction false} RedirectionAt(name: string, subs: seq<(string, seq<Entry>)>, j: nat)
    requires j < |subs|
    ensures Redirections(name, subs)[|subs| - 1 - j]
         == Case(subs[j].0, Redirect(Pow2(j + 1) - 1, ChildName(name, j + 1)))
    decreases |subs|
  {
    if j < |subs| - 1 {
      var init := subs[..|subs| - 1];
      RedirectionAt(name, init, j);
      assert init[j] == subs[j];
    }
  }

  /** The definitions of the nested mappings `subs` of macro `name`, block
      after block in discovery order. */
  function SubDefinitions(name: string, subs: seq<(string, seq<Entry>)>): (r: seq<Definition>)
  {
    if |subs| == 0 then []
    else
      var k := |subs|;
      SubDefinitions(name, subs[..k - 1]) + Compile(ChildName(name, k), subs[k - 1].1)
  }

  /** The definition of the macro `name` itself. */
  function RootDefinition(name: string, es: seq<Entry>): (r: Definition)
  {
    Definition(name, 1, LeafCases(es) + Redirections(name, NestedMaps(es)))
  }

  /** The loop's state once it has seen the pairs `p`. */
  function Closed(name: string, p: seq<Entry>): (r: LoopState)
  {
    var subs := NestedMaps(p);
    LoopState(LeafCases(p), Redirections(name, subs), SubDefinitions(name, subs), Pow2(|subs| + 1) - 1)
  }

  lemma LeafCasesSnoc(p: seq<Entry>, e: Entry)
    ensures LeafCases(p + [e]) == LeafCases(p) + (match e.1 case Leaf(s) => [Case(e.0, Emit(s))] case Branch(_) => [])
  {
    var q := p + [e];
    assert q[..|q| - 1] == p;
  }

  lemma NestedMapsSnoc(p: seq<Entry>, e: Entry)
    ensures NestedMaps(p + [e]) == NestedMaps(p) + (match e.1 case Leaf(_) => [] case Branch(ces) => [(e.0, ces)])
  {
    var q := p + [e];
    assert q[..|q| - 1] == p;
  }

  lemma RedirectionsSnoc(name: string, subs: seq<(string, seq<Entry>)>, x: (string, seq<Entry>))
    ensures Redirections(name, subs + [x])
         == [Case(x.0, Redirect(Pow2(|subs| + 1) - 1, ChildName(name, |subs| + 1)))] + Redirections(name, subs)
  {
    var subs' := subs + [x];
    assert subs'[..|subs'| - 1] == subs;
  }

  lemma SubDefinitionsSnoc(name: string, subs: seq<(string, seq<Entry>)>, x: (string, seq<Entry>))
    ensures SubDefinitions(name, subs + [x])
         == SubDefinitions(name, subs) + Compile(ChildName(name, |subs| + 1), x.1)
  {
    var subs' := subs + [x];
    assert subs'[..|subs'| - 1] == subs;
  }

  lemma ClosedStepLeaf(name: string, p: seq<Entry>, key: string, s: string)
    ensures Closed(name, p + [(key, Leaf(s))]) == Step(name, Closed(name, p), key, Leaf(s))
  {
    LeafCasesSnoc(p, (key, Leaf(s)));
    NestedMapsSnoc(p, (key, Leaf(s)));
  }

  /** The redirections after a nested mapping: its own in front. */
  lemma ClosedRedirections(name: string, p: seq<Entry>, key: string, ces: seq<Entry>)
    ensures Redirections(name, NestedMaps(p + [(key, Branch(ces))]))
         == [Case(key, Redirect(Pow2(|NestedMaps(p)| + 1) - 1, ChildName(name, |NestedMaps(p)| + 1)))]
              + Redirections(name, NestedMaps(p))
  {
    var q := p + [(key, Branch(ces))];
    var subs := NestedMaps(p);
    NestedMapsSnoc(p, (key, Branch(ces)));
    calc {
      Redirections(name, NestedMaps(q));
      { assert NestedMaps(q) == subs + [(key, ces)]; }
      Redirections(name, subs + [(key, ces)]);
      { RedirectionsSnoc(name, subs, (key, ces)); }
      [Case(key, Redirect(Pow2(|subs| + 1) - 1, ChildName(name, |subs| + 1)))] + Redirections(name, subs);
    }
  }

  /** The closed form after a nested mapping, component by component. */
  lemma ClosedSnocBranch(name: string, p: seq<Entry>, key: string, ces: seq<Entry>)
    ensures Closed(name, p + [(key, Branch(ces))])
         == LoopState(
              LeafCases(p),
              [Case(key, Redirect(Pow2(|NestedMaps(p)| + 1) - 1, ChildName(name, |NestedMaps(p)| + 1)))]
                + Redirections(name, NestedMaps(p)),
              SubDefinitions(name, NestedMaps(p)) + Compile(ChildName(name, |NestedMaps(p)| + 1), ces),
              2 * (Pow2(|NestedMaps(p)| + 1) - 1) + 1)
  {
    var q := p + [(key, Branch(ces))];
    var subs := NestedMaps(p);
    var k := |subs| + 1;
    LeafCasesSnoc(p, (key, Branch(ces)));
    NestedMapsSnoc(p, (key, Branch(ces)));
    SubDefinitionsSnoc(name, subs, (key, ces));
    ClosedRedirections(name, p, key, ces);
    var subs' := subs + [(key, ces)];
    assert NestedMaps(q) == subs';
    var st := Closed(name, q);
    assert st.leaves == LeafCases(p);
    assert st.subDefinitions == SubDefinitions(name, subs) + Compile(ChildName(name, k), ces);
    assert Pow2(k + 1) == 2 * Pow2(k);
    assert st.expandafters == 2 * (Pow2(k) - 1) + 1;
  }

  lemma ClosedStepBranch(name: string, p: seq<Entry>, key: string, ces: seq<Entry>)
    ensures Closed(name, p + [(key, Branch(ces))]) == Step(name, Closed(name, p), key, Branch(ces))
  {
    ClosedSnocBranch(name, p, key, ces);
    assert |Redirections(name, NestedMaps(p))| == |NestedMaps(p)|;
  }

  /** One more pair moves the closed form along by one loop iteration. */
  lemma ClosedStep(name: string, p: seq<Entry>, e: Entry)
    ensures Closed(name, p + [e]) == Step(name, Closed(name, p), e.0, e.1)
  {
    match e.1
    case Leaf(s) => ClosedStepLeaf(name, p, e.0, s);
    case Branch(ces) => ClosedStepBranch(name, p, e.0, ces);
  }

  /** Running the loop from a state that is the closed form of a prefix
      ends in the closed form of the whole mapping. */
  lemma {:induction false} LoopClosedForm(name: string, es: seq<Entry>, i: nat)
    requires i <= |es|
    ensures Loop(name, es, i, Closed(name, es[..i])) == Closed(name, es)
    decreases |es| - i
  {
    if i == |es| {
      assert es[..i] == es;
    } else {
      assert es[..i + 1] == es[..i] + [es[i]];
      ClosedStep(name, es[..i], es[i]);
      LoopClosedForm(name, es, i + 1);
    }
  }

  /** `Compile` emits the nested mappings' blocks in discovery order and
      then the mapping's own definition, whose branches are its scalars in
      declaration order followed by its redirections, latest first. */
  lemma CompileShape(name: string, es: seq<Entry>)
    ensures Compile(name, es) == SubDefinitions(name, NestedMaps(es)) + [RootDefinition(name, es)]
  {
    assert es[..0] == [];
    assert Closed(name, []) == Start;
    LoopClosedForm(name, es, 0);
    assert es[..|es|] == es;
  }

  // ---------------------------------------------------------------------
  // Contents of the closed form.
  // ---------------------------------------------------------------------

  /** The nested mappings listed are exactly the nested mappings of `es`. */
  lemma {:induction false} NestedMapsMember(es: seq<Entry>, x: (string, seq<Entry>))
    ensures x in NestedMaps(es) <==> (x.0, Branch(x.1)) in es
  {
    if |es| > 0 {
      var init := es[..|es| - 1];
      assert es == init + [es[|es| - 1]];
      NestedMapsMember(init, x);
    }
  }

  /** The leaf branches are exactly the scalars of `es`, as `Emit` cases. */
  lemma {:induction false} LeafCasesMember(es: seq<Entry>, c: Case)
    ensures c in LeafCases(es) <==> c.action.Emit? && (c.key, Leaf(c.action.text)) in es
  {
    if |es| > 0 {
      var init := es[..|es| - 1];
      assert es == init + [es[|es| - 1]];
      LeafCasesMember(init, c);
    }
  }

  /** Distinct keys stay distinct among the nested mappings. */
  lemma {:induction false} NestedMapsDistinct(es: seq<Entry>)
    requires DistinctKeys(es)
    ensures forall a, b :: 0 <= a < b < |NestedMaps(es)| ==> NestedMaps(es)[a].0 != NestedMaps(es)[b].0
  {
    if |es| > 0 {
      var init := es[..|es| - 1];
      var last := es[|es| - 1];
      assert es == init + [last];
      NestedMapsDistinct(init);
      var subs := NestedMaps(init);
      forall j | 0 <= j < |subs|
        ensures subs[j].0 != last.0
      {
        assert subs[j] in subs;
        NestedMapsMember(init, subs[j]);
        var i :| 0 <= i < |init| && init[i] == (subs[j].0, Branch(subs[j].1));
        assert es[i] == init[i];
      }
    }
  }

  /** `m` is `stem` possibly followed by more `@`-introduced parts. */
  predicate HasStem(m: string, stem: string)
  {
    |stem| <= |m| && m[..|stem|] == stem && (|m| == |stem| || m[|stem|] == '@')
  }

  /** From position `from` on, `m` holds only the `@` and `i` of child
      names. */
  predicate NameTail(m: string, from: nat)
  {
    forall k :: from <= k < |m| ==> m[k] == '@' || m[k] == 'i'
  }

  /** A name below a child of `name` is also below `name`, and longer. */
  lemma ChildStem(m: string, name: string, k: nat)
    requires k >= 1
    requires HasStem(m, ChildName(name, k))
    ensures HasStem(m, name) && |m| > |name|
  {
    var c := ChildName(name, k);
    assert m[..|name|] == c[..|name|];
    assert m[|name|] == c[|name|];
  }

  /** What follows a child's name in `m` is made of `@` and `i`, and so is
      what follows the parent's name. */
  lemma ChildTail(m: string, name: string, k: nat)
    requires HasStem(m, ChildName(name, k))
    requires NameTail(m, |ChildName(name, k)|)
    ensures NameTail(m, |name|)
  {
    var c := ChildName(name, k);
    forall t | |name| <= t < |c|
      ensures m[t] == '@' || m[t] == 'i'
    {
      assert m[t] == m[..|c|][t] == c[t];
    }
  }

  /** Names below two different children of the same macro never meet. */
  lemma ChildStemsDisjoint(m: string, name: string, a: nat, b: nat)
    requires 1 <= a && 1 <= b
    requires HasStem(m, ChildName(name, a)) && HasStem(m, ChildName(name, b))
    ensures a == b
  {
  }

  /** Every sub-definition belongs to the block of one nested mapping. */
  lemma {:induction false} SubDefinitionBlock(name: string, subs: seq<(string, seq<Entry>)>, d: Definition) returns (j: nat)
    requires d in SubDefinitions(name, subs)
    ensures j < |subs| && d in Compile(ChildName(name, j + 1), subs[j].1)
  {
    var init := subs[..|subs| - 1];
    if d in SubDefinitions(name, init) {
      j := SubDefinitionBlock(name, init, d);
      assert subs[j] == init[j];
    } else {
      j := |subs| - 1;
    }
  }

  /** All macro names generated for `es` extend `name` with `@`s and
      `i`s only; only the mapping's own definition carries `name` itself.
      Every definition takes one argument. */
  lemma {:induction false} CompileNameStem(name: string, es: seq<Entry>, d: Definition)
    requires d in Compile(name, es)
    ensures HasStem(d.name, name) && NameTail(d.name, |name|)
    ensures d in SubDefinitions(name, NestedMaps(es)) ==> |d.name| > |name|
    ensures d.arity == 1
    decreases Branch(es)
  {
    var subs := NestedMaps(es);
    CompileShape(name, es);
    if d in SubDefinitions(name, subs) {
      var j := SubDefinitionBlock(name, subs, d);
      assert subs[j] in subs;
      NestedMapsMember(es, subs[j]);
      CompileNameStem(ChildName(name, j + 1), subs[j].1, d);
      ChildStem(d.name, name, j + 1);
      ChildTail(d.name, name, j + 1);
    } else {
      assert d.name == name;
    }
  }

  /** Names generated below two different nested mappings never meet. */
  lemma BlockNamesDisjoint(name: string, subs: seq<(string, seq<Entry>)>, a: nat, b: nat, d: Definition, e: Definition)
    requires a < |subs| && b < |subs|
    requires d in Compile(ChildName(name, a + 1), subs[a].1)
    requires e in Compile(ChildName(name, b + 1), subs[b].1)
    requires d.name == e.name
    ensures a == b
  {
    CompileNameStem(ChildName(name, a + 1), subs[a].1, d);
    CompileNameStem(ChildName(name, b + 1), subs[b].1, e);
    ChildStemsDisjoint(d.name, name, a + 1, b + 1);
  }

  /** One definition per mapping node, the root's included. */
  lemma {:induction false} DefinitionCount(name: string, es: seq<Entry>)
    ensures |Compile(name, es)| == MappingCount(es)
    decreases Branch(es), |es| + 1
  {
    CompileShape(name, es);
    SubDefinitionCount(name, es, |es|);
    assert es[..|es|] == es;
  }

  lemma {:induction false} SubDefinitionCount(name: string, es: seq<Entry>, i: nat)
    requires i <= |es|
    ensures |SubDefinitions(name, NestedMaps(es[..i]))| == NestedMappingCount(es, i)
    decreases Branch(es), i
  {
    if i > 0 {
      var p := es[..i - 1];
      assert es[..i] == p + [es[i - 1]];
      SubDefinitionCount(name, es, i - 1);
      NestedMapsSnoc(p, es[i - 1]);
      match es[i - 1].1
      case Leaf(_) =>
      case Branch(ces) =>
        SubDefinitionsSnoc(name, NestedMaps(p), (es[i - 1].0, ces));
        DefinitionCount(ChildName(name, |NestedMaps(p)| + 1), ces);
    }
  }
}

=== FILE: converter.dfy ===
/** The converter object: a header (the usage comment, when asked for,
    above the fixed `\@replicate` preamble), the list of macro definitions
    and a footer, and the text they make together. */
module Converter {
  import opened Results
  import opened Text
  import opened Tree
  import opened Emitter
  import opened Documentation

  /** `\makeatother` on its own line: `@` stops being a letter again. */
  const Footer := "\n\\makeatother"

  datatype Converter = Converter(header: string, commands: seq<string>, footer: string)

  /** The constructor. `preamble` stands for the fixed TeX text that
      defines `\@replicate`; `withDoc` is `generate_documentation`. */
  function New(name: string, es: seq<Entry>, preamble: string, withDoc: bool): (r: Result<Converter, DocError>)
    ensures r.Err? <==> withDoc && GenerateDoc(name, es).Err?
    ensures r.Ok? ==> r.value.commands == CompileText(name, es) && r.value.footer == Footer
    ensures r.Ok? && !withDoc ==> r.value.header == preamble
    ensures r.Ok? && withDoc ==>
      exists doc :: GenerateDoc(name, es) == Ok(doc) && r.value.header == doc + "\n" + preamble
  {
    var commands := CompileText(name, es);
    if !withDoc then Ok(Converter(preamble, commands, Footer))
    else match GenerateDoc(name, es)
      case Err(e) => Err(e)
      case Ok(doc) => Ok(Converter(doc + "\n" + preamble, commands, Footer))
  }

  /** `repr(converter)`: the header, the definitions separated by blank
      lines, the footer. */
  function Repr(c: Converter): (r: string)
  {
    c.header + Join(c.commands, "\n\n") + c.footer
  }

  /** The text begins with the header, ends with the footer, and between
      them holds the definitions, each followed by a blank line but the
      last. */
  lemma ReprLayout(c: Converter)
    ensures var r := Repr(c);
      && |r| == |c.header| + |Join(c.commands, "\n\n")| + |c.footer|
      && r[..|c.header|] == c.header
      && r[|r| - |c.footer|..] == c.footer
      && r[|c.header|..|r| - |c.footer|] == Join(c.commands, "\n\n")
  {
  }

  /** With documentation the text starts with the usage comment's title,
      and without it with the preamble; in both cases it ends with
      `\makeatother`. */
  lemma ReprFrame(name: string, es: seq<Entry>, preamble: string, withDoc: bool)
    requires New(name, es, preamble, withDoc).Ok?
    ensures var r := Repr(New(name, es, preamble, withDoc).value);
      && (withDoc ==> |r| > |DocTitle| && r[..|DocTitle| + 1] == DocTitle + "\n")
      && (!withDoc ==> |r| >= |preamble| && r[..|preamble|] == preamble)
      && |r| >= |Footer| && r[|r| - |Footer|..] == Footer
  {
    var c := New(name, es, preamble, withDoc).value;
    var r := Repr(c);
    ReprLayout(c);
    if withDoc {
      var doc :| GenerateDoc(name, es) == Ok(doc) && c.header == doc + "\n" + preamble;
      DocStartsWithTitle(name, es);
      assert c.header[..|doc|] == doc;
      PrefixOfPrefix(c.header, doc, DocTitle + "\n");
      PrefixOfPrefix(r, c.header, DocTitle + "\n");
    } else {
      PrefixOfPrefix(r, c.header, preamble);
    }
  }

  lemma PrefixOfPrefix(r: string, h: string, t: string)
    requires |h| <= |r| && r[..|h|] == h
    requires |t| <= |h| && h[..|t|] == t
    ensures r[..|t|] == t
  {
    assert r[..|t|] == r[..|h|][..|t|];
  }
}

=== FILE: dispatch.dfy ===
/** What the generated macros do when called: an abstract reading of the
    `\pdfstrcmp` dispatch, where a call with one argument picks the branch
    whose key equals the argument and either yields the scalar's text or
    hands the next argument to the macro it redirects to. */
module Dispatch {
  import opened Results
  import opened Tree
  import opened Compiler

  /** The definition of macro `name`, if one was emitted. */
  function FindDefinition(defs: seq<Definition>, name: string): (r: Option<Definition>)
    ensures r.None? <==> forall i :: 0 <= i < |defs| ==> defs[i].name != name
    ensures r.Some? ==> r.value in defs && r.value.name == name
  {
    if |defs| == 0 then None
    else if defs[0].name == name then Some(defs[0])
    else FindDefinition(defs[1..], name)
  }

  /** The action of the branch whose key equals the call argument. */
  function FindCase(cases: seq<Case>, key: string): (r: Option<Action>)
    ensures r.None? <==> forall c :: c in cases ==> c.key != key
    ensures r.Some? ==> Case(key, r.value) in cases
  {
    if |cases| == 0 then None
    else if cases[0].key == key then Some(cases[0].action)
    else FindCase(cases[1..], key)
  }

  /** The text that `\name{k1}{k2}...{kn}` expands to, when it is a scalar. */
  function Lookup(defs: seq<Definition>, name: string, keys: seq<string>): (r: Option<string>)
    decreases |keys|
  {
    if |keys| == 0 then None
    else match FindDefinition(defs, name)
      case None => None
      case Some(d) =>
        match FindCase(d.cases, keys[0])
        case None => None
        case Some(Emit(s)) => if |keys| == 1 then Some(s) else None
        case Some(Redirect(_, target)) => Lookup(defs, target, keys[1..])
  }

  /** Searching a concatenation finds the earlier part's definition first. */
  lemma {:induction false} FindDefinitionAppend(a: seq<Definition>, b: seq<Definition>, name: string)
    ensures FindDefinition(a + b, name)
         == if FindDefinition(a, name).Some? then FindDefinition(a, name) else FindDefinition(b, name)
  {
    if |a| > 0 {
      assert (a + b)[1..] == a[1..] + b;
      FindDefinitionAppend(a[1..], b, name);
    } else {
      assert a + b == b;
    }
  }

  /** `defs` resolves every macro name of `defs'` to the same definition. */
  ghost predicate Resolves(defs: seq<Definition>, defs': seq<Definition>)
  {
    forall m :: FindDefinition(defs', m).Some? ==> FindDefinition(defs, m) == FindDefinition(defs', m)
  }

  /** Among the definitions for a mapping, its own name finds its own
      definition. */
  lemma FindRoot(name: string, es: seq<Entry>)
    ensures FindDefinition(Compile(name, es), name) == Some(RootDefinition(name, es))
  {
    var subs := SubDefinitions(name, NestedMaps(es));
    CompileShape(name, es);
    assert FindDefinition(subs, name).None? by {
      forall i | 0 <= i < |subs|
        ensures subs[i].name != name
      {
        assert subs[i] in Compile(name, es);
        CompileNameStem(name, es, subs[i]);
      }
    }
    FindDefinitionAppend(subs, [RootDefinition(name, es)], name);
  }

  /** The block of the j-th nested mapping answers for all of its names
      inside the whole run of blocks. */
  lemma {:induction false} FindInBlock(name: string, subs: seq<(string, seq<Entry>)>, j: nat, m: string)
    requires j < |subs|
    requires FindDefinition(Compile(ChildName(name, j + 1), subs[j].1), m).Some?
    ensures FindDefinition(SubDefinitions(name, subs), m)
         == FindDefinition(Compile(ChildName(name, j + 1), subs[j].1), m)
  {
    var k := |subs|;
    var init := subs[..k - 1];
    var a := SubDefinitions(name, init);
    var b := Compile(ChildName(name, k), subs[k - 1].1);
    FindDefinitionAppend(a, b, m);
    if j == k - 1 {
      var e := FindDefinition(b, m).value;
      if FindDefinition(a, m).Some? {
        var d := FindDefinition(a, m).value;
        var j' := SubDefinitionBlock(name, init, d);
        assert init[j'] == subs[j'];
        BlockNamesDisjoint(name, subs, j', j, d, e);
        assert false;
      }
    } else {
      assert init[j] == subs[j];
      FindInBlock(name, init, j, m);
    }
  }

  /** The definitions for a mapping answer for every name of the
      definitions of each of its nested mappings. */
  lemma ResolvesChild(name: string, es: seq<Entry>, j: nat)
    requires j < |NestedMaps(es)|
    ensures Resolves(Compile(name, es), Compile(ChildName(name, j + 1), NestedMaps(es)[j].1))
  {
    var subs := NestedMaps(es);
    var child := Compile(ChildName(name, j + 1), subs[j].1);
    CompileShape(name, es);
    forall m | FindDefinition(child, m).Some?
      ensures FindDefinition(Compile(name, es), m) == FindDefinition(child, m)
    {
      FindInBlock(name, subs, j, m);
      FindDefinitionAppend(SubDefinitions(name, subs), [RootDefinition(name, es)], m);
    }
  }

  /** A redirection of the mapping's macro comes from a nested mapping of
      `es` carrying the same key. */
  lemma RedirectionSource(name: string, es: seq<Entry>, c: Case) returns (t: nat, i: nat)
    requires c in Redirections(name, NestedMaps(es))
    ensures t < |NestedMaps(es)| && c.key == NestedMaps(es)[t].0
    ensures c.action == Redirect(Pow2(t + 1) - 1, ChildName(name, t + 1))
    ensures i < |es| && es[i] == (c.key, Branch(NestedMaps(es)[t].1))
  {
    var u :| 0 <= u < |Redirections(name, NestedMaps(es))| && Redirections(name, NestedMaps(es))[u] == c;
    t := |NestedMaps(es)| - 1 - u;
    RedirectionAt(name, NestedMaps(es), t);
    assert NestedMaps(es)[t] in NestedMaps(es);
    NestedMapsMember(es, NestedMaps(es)[t]);
    i :| 0 <= i < |es| && es[i] == (NestedMaps(es)[t].0, Branch(NestedMaps(es)[t].1));
  }

  /** Every branch of the mapping's macro comes from the pair of `es` that
      carries its key: a leaf branch from a scalar, a redirection from a
      nested mapping. */
  lemma CaseSource(name: string, es: seq<Entry>, c: Case) returns (i: nat)
    requires c in RootDefinition(name, es).cases
    ensures i < |es| && es[i].0 == c.key
    ensures c.action.Emit? <==> es[i].1.Leaf?
    ensures c.action.Emit? ==> es[i].1.text == c.action.text
  {
    if c in LeafCases(es) {
      LeafCasesMember(es, c);
      i :| 0 <= i < |es| && es[i] == (c.key, Leaf(c.action.text));
    } else {
      var t;
      t, i := RedirectionSource(name, es, c);
    }
  }

  /** A key the mapping does not carry matches no branch of its macro. */
  lemma RootCaseMissing(name: string, es: seq<Entry>, key: string)
    requires forall i :: 0 <= i < |es| ==> es[i].0 != key
    ensures FindCase(RootDefinition(name, es).cases, key).None?
  {
    var cases := RootDefinition(name, es).cases;
    if FindCase(cases, key).Some? {
      var i := CaseSource(name, es, Case(key, FindCase(cases, key).value));
      assert false;
    }
  }

  /** With distinct keys, a scalar's key selects exactly its leaf branch. */
  lemma RootCaseLeaf(name: string, es: seq<Entry>, i: nat)
    requires DistinctKeys(es)
    requires i < |es| && es[i].1.Leaf?
    ensures FindCase(RootDefinition(name, es).cases, es[i].0) == Some(Emit(es[i].1.text))
  {
    var key := es[i].0;
    var cases := RootDefinition(name, es).cases;
    assert es[i] in es;
    LeafCasesMember(es, Case(key, Emit(es[i].1.text)));
    assert Case(key, Emit(es[i].1.text)) in cases;
    var i' := CaseSource(name, es, Case(key, FindCase(cases, key).value));
    assert i' == i;
  }

  /** Distinct keys stay distinct among the nested mappings. */
  lemma NestedKeyIndex(es: seq<Entry>, t: nat, j: nat)
    requires DistinctKeys(es)
    requires t < |NestedMaps(es)| && j < |NestedMaps(es)|
    requires NestedMaps(es)[t].0 == NestedMaps(es)[j].0
    ensures t == j
  {
    NestedMapsDistinct(es);
  }

  /** With distinct keys, a nested mapping's key selects exactly its
      redirection: to the j-th child macro after 2^(j+1) - 1 expansions. */
  lemma RootCaseBranch(name: string, es: seq<Entry>, i: nat) returns (j: nat)
    requires DistinctKeys(es)
    requires i < |es| && es[i].1.Branch?
    ensures j < |NestedMaps(es)| && NestedMaps(es)[j] == (es[i].0, es[i].1.entries)
    ensures FindCase(RootDefinition(name, es).cases, es[i].0)
         == Some(Redirect(Pow2(j + 1) - 1, ChildName(name, j + 1)))
  {
    var key := es[i].0;
    var subs := NestedMaps(es);
    var reds := Redirections(name, subs);
    var cases := RootDefinition(name, es).cases;
    assert es[i] in es;
    NestedMapsMember(es, (key, es[i].1.entries));
    j :| 0 <= j < |subs| && subs[j] == (key, es[i].1.entries);
    RedirectionAt(name, subs, j);
    assert reds[|subs| - 1 - j] in cases;
    var c := Case(key, FindCase(cases, key).value);
    var i' := CaseSource(name, es, c);
    assert i' == i;
    assert !c.action.Emit?;
    LeafCasesMember(es, c);
    assert c in reds;
    var t, i'' := RedirectionSource(name, es, c);
    NestedKeyIndex(es, t, j);
    assert c.action == Redirect(Pow2(j + 1) - 1, ChildName(name, j + 1));
    assert FindCase(cases, key) == Some(c.action);
  }

  /** Calling the compiled macros with a key chain gives what indexing the
      mapping with it gives, inside any definition list that resolves the
      compiled names the same way. */
  lemma {:induction false} LookupResolved(defs: seq<Definition>, name: string, es: seq<Entry>, keys: seq<string>)
    requires UniqueKeys(es)
    requires Resolves(defs, Compile(name, es))
    ensures Lookup(defs, name, keys) == Get(Branch(es), keys)
    decreases |keys|
  {
    if |keys| > 0 {
      FindRoot(name, es);
      var key := keys[0];
      match FindEntry(es, key)
      case None =>
        RootCaseMissing(name, es, key);
      case Some(child) =>
        var i :| 0 <= i < |es| && es[i] == (key, child);
        match child
        case Leaf(s) =>
          RootCaseLeaf(name, es, i);
        case Branch(ces) =>
          var j := RootCaseBranch(name, es, i);
          ResolvesChild(name, es, j);
          var sub := Compile(ChildName(name, j + 1), ces);
          assert Resolves(defs, sub);
          assert UniqueKeys(ces);
          LookupResolved(defs, ChildName(name, j + 1), ces, keys[1..]);
    }
  }

  /** Round trip: calling the root macro with the keys of a path, one
      argument per nesting level, yields exactly what indexing the
      dictionary with that path yields, and nothing for any other chain. */
  lemma CompiledLookup(name: string, es: seq<Entry>, keys: seq<string>)
    requires UniqueKeys(es)
    ensures Lookup(Compile(name, es), name, keys) == Get(Branch(es), keys)
  {
    LookupResolved(Compile(name, es), name, es, keys);
  }

  /** The calls that produce a scalar are exactly the valid access paths. */
  lemma CompiledLookupDefinedIff(name: string, es: seq<Entry>, keys: seq<string>)
    requires UniqueKeys(es)
    ensures Lookup(Compile(name, es), name, keys).Some? <==> IsLeafPath(es, keys)
  {
    CompiledLookup(name, es, keys);
    LeafPathIffGet(es, keys);
  }
}

=== FILE: documentation.dfy ===
/** The usage comment printed above the macros: every access path of the
    mapping, factorized pass by pass for argument index 0, 1, ... up to the
    longest path, then printed one `% \name{...}{...}` line per path with
    the keys of a group separated by `/`. */
module Documentation {
  import opened Results
  import opened Text
  import opened Tree
  import opened Compiler
  import opened Dispatch
  import opened Paths
  import opened Factorize

  /** The mapping holds no scalar at any depth, so the longest path is the
      maximum of an empty sequence, which Python rejects. */
  datatype DocError = NoScalar

  const DocTitle := "% How to use:"

  /** The length of the longest path: the number of passes. */
  function MaxLength(ps: seq<Path>): (m: nat)
    requires |ps| > 0
    ensures forall i :: 0 <= i < |ps| ==> |ps[i]| <= m
    ensures exists i :: 0 <= i < |ps| && |ps[i]| == m
  {
    if |ps| == 1 then |ps[0]|
    else
      var m := MaxLength(ps[1..]);
      assert forall i :: 1 <= i < |ps| ==> ps[i] == ps[1..][i - 1];
      if |ps[0]| >= m then |ps[0]| else m
  }

  /** The passes for index `from` up to `depth - 1`, in that order. */
  function Passes(ps: seq<Path>, from: nat, depth: nat): (r: seq<Path>)
    decreases depth - from
  {
    if from >= depth then ps else Passes(Pass(ps, from), from + 1, depth)
  }

  /** The factorized access paths of `es`, or the error Python raises. */
  function Factorized(es: seq<Entry>): (r: Result<seq<Path>, DocError>)
  {
    var cases := Enumerate(es);
    if |cases| == 0 then Err(NoScalar) else Ok(Passes(cases, 0, MaxLength(cases)))
  }

  /** One call argument: the keys of a group separated by `/`, in braces. */
  function Argument(g: Group): (r: string)
  {
    "{" + Join(g, "/") + "}"
  }

  function Arguments(p: Path): (r: string)
  {
    if |p| == 0 then "" else Argument(p[0]) + Arguments(p[1..])
  }

  function UsageLine(name: string, p: Path): (r: string)
  {
    "% \\" + name + Arguments(p)
  }

  /** Each path's line, each followed by a newline. */
  function UsageLines(name: string, ps: seq<Path>): (r: string)
  {
    if |ps| == 0 then "" else UsageLine(name, ps[0]) + "\n" + UsageLines(name, ps[1..])
  }

  function RenderDoc(name: string, ps: seq<Path>): (r: string)
  {
    DocTitle + "\n" + UsageLines(name, ps)
  }

  /** The usage comment for the root macro `name` of mapping `es`. */
  function GenerateDoc(name: string, es: seq<Entry>): (r: Result<string, DocError>)
  {
    match Factorized(es)
    case Err(e) => Err(e)
    case Ok(ps) => Ok(RenderDoc(name, ps))
  }

  /** The documentation opens with its title line. */
  lemma DocStartsWithTitle(name: string, es: seq<Entry>)
    requires GenerateDoc(name, es).Ok?
    ensures var doc := GenerateDoc(name, es).value;
      |doc| > |DocTitle| && doc[..|DocTitle| + 1] == DocTitle + "\n"
  {
    var ps := Factorized(es).value;
    assert GenerateDoc(name, es).value == (DocTitle + "\n") + UsageLines(name, ps);
  }

  // ---------------------------------------------------------------------
  // When the documentation cannot be produced.
  // ---------------------------------------------------------------------

  /** The documentation fails exactly when the mapping holds no scalar, for
      instance when it is empty or holds only empty nested mappings. */
  lemma GenerateDocFails(name: string, es: seq<Entry>)
    ensures GenerateDoc(name, es).Err? <==> LeafCount(es, |es|) == 0
  {
    CasesCount(es, |es|);
  }

  // ---------------------------------------------------------------------
  // What the documentation describes.
  // ---------------------------------------------------------------------

  lemma {:induction false} PassesCover(ps: seq<Path>, from: nat, depth: nat, keys: seq<string>)
    ensures Covered(Passes(ps, from, depth), keys) <==> Covered(ps, keys)
    decreases depth - from
  {
    if from < depth {
      PassCovers(ps, from, keys);
      PassesCover(Pass(ps, from), from + 1, depth, keys);
    }
  }

  /** The enumerated paths describe exactly the valid access paths. */
  lemma EnumerateCovers(es: seq<Entry>, keys: seq<string>)
    ensures Covered(Enumerate(es), keys) <==> IsLeafPath(es, keys)
  {
    EnumerateLeafPaths(es, keys);
    var s := Singletons(keys);
    if Covered(Enumerate(es), keys) {
      var p :| p in Enumerate(es) && Covers(p, keys);
      EnumerateSingletons(es, p);
      assert Keys(p) == keys by {
        forall g | 0 <= g < |p|
          ensures Keys(p)[g] == keys[g]
        {
          assert p[g] == [Keys(p)[g]];
        }
      }
    }
    if IsLeafPath(es, keys) {
      assert Covers(s, keys);
    }
  }

  /** The calls the documentation lists, one key picked per group, are
      exactly the valid access paths of the mapping. */
  lemma DocumentedCalls(es: seq<Entry>, keys: seq<string>)
    requires Factorized(es).Ok?
    ensures Covered(Factorized(es).value, keys) <==> IsLeafPath(es, keys)
  {
    var cases := Enumerate(es);
    PassesCover(cases, 0, MaxLength(cases), keys);
    EnumerateCovers(es, keys);
  }

  /** For a real dictionary, the calls the documentation lists are exactly
      the calls of the compiled root macro that yield a scalar. */
  lemma DocumentedCallsResolve(name: string, es: seq<Entry>, keys: seq<string>)
    requires UniqueKeys(es)
    requires Factorized(es).Ok?
    ensures Covered(Factorized(es).value, keys) <==> Lookup(Compile(name, es), name, keys).Some?
  {
    DocumentedCalls(es, keys);
    CompiledLookupDefinedIff(name, es, keys);
  }

  /** The factorized paths describe as many calls, counted with
      multiplicity, as there are scalars. */
  lemma {:induction false} PassesWeight(ps: seq<Path>, from: nat, depth: nat)
    ensures TotalWeight(Passes(ps, from, depth)) == TotalWeight(ps)
    decreases depth - from
  {
    if from < depth {
      PassWeight(ps, from);
      PassesWeight(Pass(ps, from), from + 1, depth);
    }
  }

  lemma {:induction false} SingletonsWeight(keys: seq<string>)
    ensures Weight(Singletons(keys)) == 1
    decreases |keys|
  {
    if |keys| > 0 {
      var p := Singletons(keys);
      assert p[..|p| - 1] == Singletons(keys[..|keys| - 1]);
      SingletonsWeight(keys[..|keys| - 1]);
    }
  }

  lemma {:induction false} EnumeratedWeight(es: seq<Entry>, ps: seq<Path>)
    requires forall i :: 0 <= i < |ps| ==> ps[i] in Enumerate(es)
    ensures TotalWeight(ps) == |ps|
  {
    if |ps| > 0 {
      EnumerateSingletons(es, ps[0]);
      SingletonsWeight(Keys(ps[0]));
      assert forall i :: 0 <= i < |ps[1..]| ==> ps[1..][i] == ps[i + 1];
      EnumeratedWeight(es, ps[1..]);
    }
  }

  /** The calls the documentation lines describe, counted with
      multiplicity, are as many as the scalars. */
  lemma DocumentedCallCount(es: seq<Entry>)
    requires Factorized(es).Ok?
    ensures TotalWeight(Factorized(es).value) == LeafCount(es, |es|)
  {
    var cases := Enumerate(es);
    PassesWeight(cases, 0, MaxLength(cases));
    EnumeratedWeight(es, cases);
    CasesCount(es, |es|);
  }

  lemma {:induction false} PassesCount(ps: seq<Path>, from: nat, depth: nat, keys: seq<string>)
    ensures CoverCount(Passes(ps, from, depth), keys) <= CoverCount(ps, keys)
    decreases depth - from
  {
    if from < depth {
      PassCount(ps, from, keys);
      PassesCount(Pass(ps, from), from + 1, depth, keys);
    }
  }

  /** Behind a key, a path covers a call that starts with that key and
      continues with a call it covered before. */
  lemma {:induction false} PrefixedCount(key: string, ps: seq<Path>, keys: seq<string>)
    ensures CoverCount(Prefixed(key, ps), keys)
      == if |keys| >= 1 && keys[0] == key then CoverCount(ps, keys[1..]) else 0
  {
    if |ps| > 0 {
      var q := Prefixed(key, ps);
      assert q[1..] == Prefixed(key, ps[1..]);
      PrefixedCount(key, ps[1..], keys);
      assert Covers(q[0], keys) <==> |keys| >= 1 && keys[0] == key && Covers(ps[0], keys[1..]) by {
        assert q[0] == [[key]] + ps[0];
        if Covers(q[0], keys) {
          assert keys[0] in [key];
          forall g | 0 <= g < |ps[0]|
            ensures keys[1..][g] in ps[0][g]
          {
            assert q[0][g + 1] == ps[0][g];
          }
        }
        if |keys| >= 1 && keys[0] == key && Covers(ps[0], keys[1..]) {
          forall g | 0 <= g < |q[0]|
            ensures keys[g] in q[0][g]
          {
            if g > 0 {
              assert q[0][g] == ps[0][g - 1];
              assert keys[g] == keys[1..][g - 1];
            }
          }
        }
      }
    }
  }

  /** For a real dictionary, the paths of the first `i` pairs cover a call
      at most once, and only when it starts with one of their keys. */
  lemma {:induction false} CasesCountOnce(es: seq<Entry>, i: nat, keys: seq<string>)
    requires UniqueKeys(es)
    requires i <= |es|
    ensures CoverCount(Cases(es, i), keys) <= 1
    ensures CoverCount(Cases(es, i), keys) == 1 ==>
      |keys| >= 1 && exists j :: 0 <= j < i && es[j].0 == keys[0]
    decreases Branch(es), i
  {
    if i > 0 {
      CasesCountOnce(es, i - 1, keys);
      var e := es[i - 1];
      var prev := Cases(es, i - 1);
      var here := match e.1
        case Leaf(_) => [[[e.0]]]
        case Branch(ces) => Prefixed(e.0, Cases(ces, |ces|));
      assert Cases(es, i) == prev + here;
      CoverCountAppend(prev, here, keys);
      assert CoverCount(here, keys) <= 1 && (CoverCount(here, keys) == 1 ==> |keys| >= 1 && keys[0] == e.0) by {
        match e.1
        case Leaf(_) =>
          assert CoverCount(here, keys) == if Covers([[e.0]], keys) then 1 else 0;
          if Covers([[e.0]], keys) {
            assert keys[0] in [e.0];
          }
        case Branch(ces) =>
          assert e in es;
          PrefixedCount(e.0, Cases(ces, |ces|), keys);
          if |keys| >= 1 {
            CasesCountOnce(ces, |ces|, keys[1..]);
          }
      }
      assert CoverCount(prev, keys) == 0 || CoverCount(here, keys) == 0;
    }
  }

  /** For a real dictionary, every valid access path is described by
      exactly one documentation line, and any other key list by none. */
  lemma DocumentedOnce(es: seq<Entry>, keys: seq<string>)
    requires UniqueKeys(es)
    requires Factorized(es).Ok?
    ensures CoverCount(Factorized(es).value, keys) == if IsLeafPath(es, keys) then 1 else 0
  {
    var cases := Enumerate(es);
    PassesCount(cases, 0, MaxLength(cases), keys);
    CasesCountOnce(es, |es|, keys);
    CoverCountCovered(Factorized(es).value, keys);
    DocumentedCalls(es, keys);
  }

  // ---------------------------------------------------------------------
  // The text: one line per factorized path.
  // ---------------------------------------------------------------------

  function UsageLineList(name: string, ps: seq<Path>): (r: seq<string>)
  {
    seq(|ps|, i requires 0 <= i < |ps| => UsageLine(name, ps[i]))
  }

  lemma {:induction false} UsageLinesJoin(name: string, ps: seq<Path>)
    ensures UsageLines(name, ps) == Join(UsageLineList(name, ps) + [""], "\n")
    decreases |ps|
  {
    if |ps| > 0 {
      var ls := UsageLineList(name, ps) + [""];
      UsageLinesJoin(name, ps[1..]);
      assert ls[1..] == UsageLineList(name, ps[1..]) + [""];
    }
  }

  lemma {:induction false} JoinAvoids(parts: seq<string>, sep: string, c: char)
    requires c !in sep
    requires forall i :: 0 <= i < |parts| ==> c !in parts[i]
    ensures c !in Join(parts, sep)
    decreases |parts|
  {
    if |parts| > 1 {
      JoinAvoids(parts[1..], sep, c);
    }
  }

  lemma {:induction false} ArgumentsAvoid(p: Path, c: char)
    requires c !in "{}/"
    requires forall g, k :: 0 <= g < |p| && 0 <= k < |p[g]| ==> c !in p[g][k]
    ensures c !in Arguments(p)
    decreases |p|
  {
    if |p| > 0 {
      JoinAvoids(p[0], "/", c);
      ArgumentsAvoid(p[1..], c);
    }
  }

  /** No key and not the name holds a newline. */
  predicate OneLine(name: string, ps: seq<Path>)
  {
    && '\n' !in name
    && forall i, g, k :: 0 <= i < |ps| && 0 <= g < |ps[i]| && 0 <= k < |ps[i][g]| ==> '\n' !in ps[i][g][k]
  }

  /** Read line by line, the documentation is its title, one usage line per
      path in order, and the empty rest after the final newline. */
  lemma DocLines(name: string, ps: seq<Path>)
    requires OneLine(name, ps)
    ensures Split(RenderDoc(name, ps), '\n') == [DocTitle] + UsageLineList(name, ps) + [""]
  {
    var ls := [DocTitle] + UsageLineList(name, ps) + [""];
    UsageLinesJoin(name, ps);
    assert ls[1..] == UsageLineList(name, ps) + [""];
    assert RenderDoc(name, ps) == Join(ls, "\n");
    forall i | 0 <= i < |ls|
      ensures '\n' !in ls[i]
    {
      if 1 <= i < |ls| - 1 {
        ArgumentsAvoid(ps[i - 1], '\n');
      }
    }
    SplitJoin(ls, '\n');
  }
}

=== FILE: emitter.dfy ===
/** The LaTeX text of the compiled definitions: one `\pdfstrcmp` test per
    dispatch case and one `\newcommand` per definition. Each emitter has a
    reader that takes its output apart again, which shows that the text
    keeps every piece it was built from. */
module Emitter {
  import opened Results
  import opened Text
  import opened Tree
  import opened Compiler

  const StrCmpOpen := "\\ifnum\\pdfstrcmp{"
  const StrCmpThen := "=0 %\n"
  const StrCmpClose := "%\n\\fi%"
  const NewCommand := "\\newcommand\\"

  /** Code that runs `content` when `a` and `b` are the same string. */
  function StrCmp(a: string, b: string, content: string): (t: string)
  {
    StrCmpOpen + a + "}{" + b + "}" + StrCmpThen + content + StrCmpClose
  }

  /** Code that defines the command `name` taking `nArgs` arguments. */
  function DefineCmd(name: string, nArgs: nat, content: string): (t: string)
  {
    NewCommand + name + "[" + NatToString(nArgs) + "]{%\n" + content + "\n}"
  }

  /** `\@replicate{n}{\expandafter}`: n copies of `\expandafter`. */
  function Expandafters(n: nat): (r: string)
  {
    "\\@replicate{" + NatToString(n) + "}{\\expandafter}"
  }

  /** What a branch runs once its key has matched. */
  function ActionText(a: Action): (r: string)
  {
    match a
    case Emit(s) => s
    case Redirect(n, target) => Expandafters(n) + "\\" + target
  }

  function RenderCase(c: Case): (r: string)
  {
    StrCmp("#1", c.key, ActionText(c.action))
  }

  /** The branches of a body, one line group each, joined by newlines. */
  function RenderBody(cases: seq<Case>): (r: string)
  {
    Join(seq(|cases|, i requires 0 <= i < |cases| => RenderCase(cases[i])), "\n")
  }

  function RenderDefinition(d: Definition): (r: string)
  {
    DefineCmd(d.name, d.arity, RenderBody(d.cases))
  }

  /** The list of command definitions for the mapping `es` under `name`. */
  function CompileText(name: string, es: seq<Entry>): (r: seq<string>)
  {
    var defs := Compile(name, es);
    seq(|defs|, i requires 0 <= i < |defs| => RenderDefinition(defs[i]))
  }

  // ---------------------------------------------------------------------
  // Readers.
  // ---------------------------------------------------------------------

  /** The text before and after the first `d` in `s`. */
  function SplitAt(s: string, d: char): (r: Option<(string, string)>)
    ensures r.Some? ==> d !in r.value.0 && s == r.value.0 + [d] + r.value.1
    ensures r.None? <==> d !in s
  {
    if |s| == 0 then None
    else if s[0] == d then
      assert s == "" + [d] + s[1..];
      Some(("", s[1..]))
    else match SplitAt(s[1..], d)
      case None => None
      case Some((x, y)) =>
        assert s == ([s[0]] + x) + [d] + y;
        Some(([s[0]] + x, y))
  }

  /** The first `d` of a text is found after a prefix free of `d`. */
  lemma {:induction false} SplitAtFirst(x: string, d: char, y: string)
    requires d !in x
    ensures SplitAt(x + [d] + y, d) == Some((x, y))
  {
    var s := x + [d] + y;
    if |x| == 0 {
      assert s == [d] + y;
      assert s[1..] == y;
    } else {
      assert s[0] == x[0];
      assert s[1..] == x[1..] + [d] + y;
      SplitAtFirst(x[1..], d, y);
      assert [x[0]] + x[1..] == x;
    }
  }

  /** Recovers the key and the content of a `StrCmp("#1", key, content)`. */
  function ParseStrCmp(t: string): (r: Option<(string, string)>)
  {
    var open := StrCmpOpen + "#1}{";
    if |t| < |open| + |StrCmpClose| || t[..|open|] != open || t[|t| - |StrCmpClose|..] != StrCmpClose then None
    else
      match SplitAt(t[|open|..|t| - |StrCmpClose|], '}')
      case None => None
      case Some((key, rest)) =>
        if |rest| < |StrCmpThen| || rest[..|StrCmpThen|] != StrCmpThen then None
        else Some((key, rest[|StrCmpThen|..]))
  }

  /** A branch with a key free of `}` reads back as its key and content. */
  lemma ParseStrCmpRoundTrip(key: string, content: string)
    requires '}' !in key
    ensures ParseStrCmp(StrCmp("#1", key, content)) == Some((key, content))
  {
    var open := StrCmpOpen + "#1}{";
    var t := StrCmp("#1", key, content);
    var rest := StrCmpThen + content;
    var mid := key + "}" + rest;
    assert t == open + mid + StrCmpClose;
    assert t[..|open|] == open;
    assert t[|t| - |StrCmpClose|..] == StrCmpClose;
    assert t[|open|..|t| - |StrCmpClose|] == mid;
    SplitAtFirst(key, '}', rest);
    assert mid == key + ['}'] + rest;
    assert rest[..|StrCmpThen|] == StrCmpThen;
    assert rest[|StrCmpThen|..] == content;
  }

  /** Recovers the name, the argument count and the body of a `DefineCmd`. */
  function ParseDefineCmd(t: string): (r: Option<(string, nat, string)>)
  {
    if |t| < |NewCommand| + 2 || t[..|NewCommand|] != NewCommand || t[|t| - 2..] != "\n}" then None
    else
      match SplitAt(t[|NewCommand|..|t| - 2], '[')
      case None => None
      case Some((name, rest)) =>
        match SplitAt(rest, ']')
        case None => None
        case Some((digits, body)) =>
          if forall i :: 0 <= i < |digits| ==> IsDigit(digits[i]) then
            if |body| < 3 || body[..3] != "{%\n" then None
            else Some((name, ParseNat(digits), body[3..]))
          else None
  }

  /** A definition whose name is free of `[` reads back as its name, its
      argument count and its body. */
  lemma ParseDefineCmdRoundTrip(name: string, nArgs: nat, content: string)
    requires '[' !in name
    ensures ParseDefineCmd(DefineCmd(name, nArgs, content)) == Some((name, nArgs, content))
  {
    var t := DefineCmd(name, nArgs, content);
    var digits := NatToString(nArgs);
    var body := "{%\n" + content;
    var rest := digits + "]" + body;
    var mid := name + "[" + rest;
    assert t == NewCommand + mid + "\n}";
    assert t[..|NewCommand|] == NewCommand;
    assert t[|t| - 2..] == "\n}";
    assert t[|NewCommand|..|t| - 2] == mid;
    SplitAtFirst(name, '[', rest);
    assert mid == name + ['['] + rest;
    assert ']' !in digits by {
      forall i | 0 <= i < |digits|
        ensures digits[i] != ']'
      {
        assert IsDigit(digits[i]);
      }
    }
    SplitAtFirst(digits, ']', body);
    assert rest == digits + [']'] + body;
    assert body[..3] == "{%\n";
    assert body[3..] == content;
    ParseNatToString(nArgs);
  }

  /** The count written into a redirection is the count it was given. */
  lemma ExpandaftersInjective(m: nat, n: nat)
    requires Expandafters(m) == Expandafters(n)
    ensures m == n
  {
    var open := "\\@replicate{";
    var close := "}{\\expandafter}";
    var a := NatToString(m);
    var b := NatToString(n);
    assert Expandafters(m) == open + a + close;
    assert Expandafters(n) == open + b + close;
    assert |a| == |b|;
    assert a == Expandafters(m)[|open|..|open| + |a|];
    assert b == Expandafters(n)[|open|..|open| + |b|];
    NatToStringInjective(m, n);
  }

  /** The text of the mapping's own macro, the last of the list: its scalar
      branches and then its redirections, in one single-argument
      `\newcommand`. */
  lemma RootText(name: string, es: seq<Entry>)
    ensures |CompileText(name, es)| >= 1
    ensures CompileText(name, es)[|CompileText(name, es)| - 1]
         == DefineCmd(name, 1, RenderBody(LeafCases(es) + Redirections(name, NestedMaps(es))))
  {
    CompileShape(name, es);
  }

  /** When the root name is free of `[`, every generated text reads back as
      its definition's name, one argument, and its rendered branches. */
  lemma CompiledTextParses(name: string, es: seq<Entry>, i: nat)
    requires '[' !in name
    requires i < |Compile(name, es)|
    ensures ParseDefineCmd(CompileText(name, es)[i])
         == Some((Compile(name, es)[i].name, 1, RenderBody(Compile(name, es)[i].cases)))
  {
    var d := Compile(name, es)[i];
    CompileNameStem(name, es, d);
    assert '[' !in d.name by {
      forall k | 0 <= k < |d.name|
        ensures d.name[k] != '['
      {
        if k < |name| {
          assert d.name[k] == d.name[..|name|][k] == name[k];
        }
      }
    }
    ParseDefineCmdRoundTrip(d.name, 1, RenderBody(d.cases));
  }

  /** The text of the redirection branch for the j-th (from 0) nested
      mapping `subs[j]` of a macro: it tests that mapping's key and then
      replicates `\expandafter` 2^(j+1) - 1 times before naming the child
      macro. */
  lemma RedirectionText(name: string, subs: seq<(string, seq<Entry>)>, j: nat)
    requires j < |subs|
    ensures RenderCase(Redirections(name, subs)[|subs| - 1 - j])
         == StrCmp("#1", subs[j].0, Expandafters(Pow2(j + 1) - 1) + "\\" + ChildName(name, j + 1))
  {
    RedirectionAt(name, subs, j);
    RenderRedirect(Redirections(name, subs)[|subs| - 1 - j], subs[j].0, Pow2(j + 1) - 1, ChildName(name, j + 1));
  }

  lemma RenderRedirect(c: Case, key: string, n: nat, target: string)
    requires c == Case(key, Redirect(n, target))
    ensures RenderCase(c) == StrCmp("#1", key, Expandafters(n) + "\\" + target)
  {
  }
}

=== FILE: factorize.dfy ===
/** One factorization pass over the access paths at argument index `idx`.
    The last path is taken as the anchor; the remaining paths are scanned
    from the end of a snapshot, and each one that has the anchor's length,
    agrees with it everywhere except at `idx` and differs there is folded
    into the anchor's group at `idx` and removed from the list. The
    anchor, grown, is output and the pass repeats on what is left. */
module Factorize {
  import opened Paths

  /** `cand` can be folded into `anchor` at index `idx`. */
  predicate Mergeable(anchor: Path, cand: Path, idx: nat)
  {
    && idx < |anchor|
    && |anchor| == |cand|
    && anchor[idx] != cand[idx]
    && anchor[..idx] == cand[..idx]
    && anchor[idx + 1..] == cand[idx + 1..]
  }

  /** The anchor with the candidate's group appended to its group `idx`. */
  function Merge(anchor: Path, cand: Path, idx: nat): (r: Path)
    requires idx < |anchor| && idx < |cand|
  {
    anchor[..idx] + [anchor[idx] + cand[idx]] + anchor[idx + 1..]
  }

  /** `s` without its first occurrence of `x` (Python's `list.remove`). */
  function RemoveFirst<T(==)>(s: seq<T>, x: T): (r: seq<T>)
    requires x in s
    ensures multiset(r) == multiset(s) - multiset{x}
    ensures |r| == |s| - 1
  {
    assert s == [s[0]] + s[1..];
    if s[0] == x then s[1..] else [s[0]] + RemoveFirst(s[1..], x)
  }

  /** `RemoveFirst` drops the first occurrence of `x` and keeps every
      other element in its place and order. */
  lemma {:induction false} RemoveFirstAt(s: seq<Path>, x: Path) returns (i: nat)
    requires x in s
    ensures i < |s| && s[i] == x && x !in s[..i]
    ensures RemoveFirst(s, x) == s[..i] + s[i + 1..]
  {
    if s[0] == x {
      i := 0;
      assert s[..i] + s[i + 1..] == s[1..];
    } else {
      RemoveFirstSkip(s, x);
      var j := RemoveFirstAt(s[1..], x);
      i := j + 1;
      ConsSplit(s, j);
    }
  }

  /** Past an element other than `x`, `RemoveFirst` keeps that element in
      front and searches the rest, where `x` still occurs. */
  lemma RemoveFirstSkip(s: seq<Path>, x: Path)
    requires x in s && s[0] != x
    ensures x in s[1..]
    ensures RemoveFirst(s, x) == [s[0]] + RemoveFirst(s[1..], x)
  {
    var k :| 0 <= k < |s| && s[k] == x;
    assert s[1..][k - 1] == x;
  }

  /** Cutting `s` around position `j + 1` is cutting its tail around `j`,
      with the head kept in front. */
  lemma ConsSplit(s: seq<Path>, j: nat)
    requires j + 1 < |s|
    ensures s[..j + 1] == [s[0]] + s[1..][..j]
    ensures s[j + 2..] == s[1..][j + 1..]
    ensures [s[0]] + (s[1..][..j] + s[1..][j + 1..]) == s[..j + 1] + s[j + 2..]
  {
  }

  /** Popping the last candidate of a snapshot drawn from `cases` leaves a
      snapshot drawn from `cases` with that candidate removed. */
  lemma SnapshotPop(cases: seq<Path>, snap: seq<Path>)
    requires multiset(snap) <= multiset(cases)
    requires |snap| > 0
    ensures snap[|snap| - 1] in cases
    ensures multiset(snap[..|snap| - 1]) <= multiset(cases)
    ensures multiset(snap[..|snap| - 1]) <= multiset(RemoveFirst(cases, snap[|snap| - 1]))
  {
    var cand := snap[|snap| - 1];
    var rest := snap[..|snap| - 1];
    assert snap == rest + [cand];
    assert cand in multiset(snap);
  }

  /** The inner loop: folds the candidates of `snap`, last first, into
      `anchor`, removing each folded one from `cases`. */
  function Scan(anchor: Path, cases: seq<Path>, snap: seq<Path>, idx: nat): (r: (Path, seq<Path>))
    requires multiset(snap) <= multiset(cases)
    ensures multiset(r.1) <= multiset(cases)
    ensures |r.1| <= |cases|
    decreases |snap|
  {
    if |snap| == 0 then (anchor, cases)
    else
      var cand := snap[|snap| - 1];
      var rest := snap[..|snap| - 1];
      SnapshotPop(cases, snap);
      if Mergeable(anchor, cand, idx) then
        Scan(Merge(anchor, cand, idx), RemoveFirst(cases, cand), rest, idx)
      else
        Scan(anchor, cases, rest, idx)
  }

  /** The outer loop: a whole pass at index `idx`. */
  function Pass(cases: seq<Path>, idx: nat): (r: seq<Path>)
    ensures |r| <= |cases|
    decreases |cases|
  {
    if |cases| == 0 then []
    else
      var rest := cases[..|cases| - 1];
      var (merged, left) := Scan(cases[|cases| - 1], rest, rest, idx);
      [merged] + Pass(left, idx)
  }

  /** A pass on a list that ends in `anchor`: the anchor's scan over the
      paths before it, then a pass over what the scan left. */
  lemma PassSnoc(rest: seq<Path>, anchor: Path, idx: nat)
    ensures var r := Scan(anchor, rest, rest, idx);
      Pass(rest + [anchor], idx) == [r.0] + Pass(r.1, idx)
  {
    assert (rest + [anchor])[..|rest|] == rest;
  }

  /** One step of the scan: the last candidate is folded in or skipped. */
  lemma ScanUnfold(anchor: Path, cases: seq<Path>, snap: seq<Path>, idx: nat)
    requires multiset(snap) <= multiset(cases)
    requires |snap| > 0
    ensures snap[|snap| - 1] in cases
    ensures multiset(snap[..|snap| - 1]) <= multiset(cases)
    ensures multiset(snap[..|snap| - 1]) <= multiset(RemoveFirst(cases, snap[|snap| - 1]))
    ensures var cand := snap[|snap| - 1];
      Scan(anchor, cases, snap, idx)
        == if Mergeable(anchor, cand, idx)
           then Scan(Merge(anchor, cand, idx), RemoveFirst(cases, cand), snap[..|snap| - 1], idx)
           else Scan(anchor, cases, snap[..|snap| - 1], idx)
  {
    SnapshotPop(cases, snap);
  }

  /** The inner loop as the source writes it: pop candidates from a copy
      of the list, fold each that matches and remove it from the list. */
  method ScanCandidates(anchor: Path, cases: seq<Path>, idx: nat) returns (merged: Path, remaining: seq<Path>)
    ensures (merged, remaining) == Scan(anchor, cases, cases, idx)
  {
    merged, remaining := anchor, cases;
    var candidates := cases;
    while |candidates| > 0
      invariant multiset(candidates) <= multiset(remaining)
      invariant Scan(merged, remaining, candidates, idx) == Scan(anchor, cases, cases, idx)
      decreases |candidates|
    {
      var cand := candidates[|candidates| - 1];
      ScanUnfold(merged, remaining, candidates, idx);
      candidates := candidates[..|candidates| - 1];
      if Mergeable(merged, cand, idx) {
        merged := Merge(merged, cand, idx);
        remaining := RemoveFirst(remaining, cand);
      }
    }
  }

  /** The pass as the source writes it: pop the last path as the anchor,
      scan the others, output the grown anchor, repeat on what is left. */
  method FactorizeCases(cases: seq<Path>, idx: nat) returns (factorized: seq<Path>)
    ensures factorized == Pass(cases, idx)
  {
    var remaining := cases;
    factorized := [];
    while |remaining| > 0
      invariant factorized + Pass(remaining, idx) == Pass(cases, idx)
      decreases |remaining|
    {
      var anchor := remaining[|remaining| - 1];
      var rest := remaining[..|remaining| - 1];
      var merged, left := ScanCandidates(anchor, rest, idx);
      assert Pass(remaining, idx) == [merged] + Pass(left, idx);
      factorized := factorized + [merged];
      remaining := left;
    }
  }

  // ---------------------------------------------------------------------
  // Shape: only group `idx` of an anchor changes, and it only grows.
  // ---------------------------------------------------------------------

  /** `q` is `p` with group `idx` possibly extended at its end. */
  predicate Grows(p: Path, q: Path, idx: nat)
  {
    && |q| == |p|
    && (forall g :: 0 <= g < |p| && g != idx ==> q[g] == p[g])
    && (idx < |p| ==> p[idx] <= q[idx])
  }

  /** Folding keeps the length, keeps the other groups and appends the
      candidate's group to the anchor's, and the two paths share every
      group but `idx`. */
  lemma MergeShape(a: Path, c: Path, idx: nat)
    requires Mergeable(a, c, idx)
    ensures var m := Merge(a, c, idx);
      && |m| == |a|
      && m[idx] == a[idx] + c[idx]
      && (forall g :: 0 <= g < |a| && g != idx ==> m[g] == a[g] && c[g] == a[g])
  {
    var m := Merge(a, c, idx);
    forall g | 0 <= g < |a| && g != idx
      ensures m[g] == a[g] && c[g] == a[g]
    {
      if g < idx {
        assert a[g] == a[..idx][g] && c[g] == c[..idx][g];
      } else {
        assert a[g] == a[idx + 1..][g - idx - 1] && c[g] == c[idx + 1..][g - idx - 1];
      }
    }
  }

  lemma MergeGrows(a: Path, c: Path, idx: nat)
    requires Mergeable(a, c, idx)
    ensures Grows(a, Merge(a, c, idx), idx)
  {
    MergeShape(a, c, idx);
  }

  /** The scan's result is its anchor grown at `idx`. */
  lemma {:induction false} ScanGrows(anchor: Path, cases: seq<Path>, snap: seq<Path>, idx: nat)
    requires multiset(snap) <= multiset(cases)
    ensures Grows(anchor, Scan(anchor, cases, snap, idx).0, idx)
    decreases |snap|
  {
    if |snap| > 0 {
      var cand := snap[|snap| - 1];
      var rest := snap[..|snap| - 1];
      SnapshotPop(cases, snap);
      if Mergeable(anchor, cand, idx) {
        var m := Merge(anchor, cand, idx);
        MergeGrows(anchor, cand, idx);
        ScanGrows(m, RemoveFirst(cases, cand), rest, idx);
      } else {
        ScanGrows(anchor, cases, rest, idx);
      }
    }
  }

  /** Every output path grows, at `idx` only, from an input path: path
      lengths are preserved and paths no longer than `idx` are copied. */
  lemma {:induction false} PassShape(cases: seq<Path>, idx: nat, q: Path) returns (p: Path)
    requires q in Pass(cases, idx)
    ensures p in cases && Grows(p, q, idx)
    decreases |cases|
  {
    var rest := cases[..|cases| - 1];
    var anchor := cases[|cases| - 1];
    var r := Scan(anchor, rest, rest, idx);
    if q == r.0 {
      ScanGrows(anchor, rest, rest, idx);
      p := anchor;
    } else {
      p := PassShape(r.1, idx, q);
      assert p in multiset(r.1);
      assert p in rest;
    }
  }

  // ---------------------------------------------------------------------
  // Coverage: the concrete calls a list of paths describes.
  // ---------------------------------------------------------------------

  /** `keys` picks one key from each group of `p`. */
  predicate Covers(p: Path, keys: seq<string>)
  {
    |keys| == |p| && forall g :: 0 <= g < |p| ==> keys[g] in p[g]
  }

  predicate Covered(ps: seq<Path>, keys: seq<string>)
  {
    exists p :: p in ps && Covers(p, keys)
  }

  lemma MergeCovers(a: Path, c: Path, idx: nat, keys: seq<string>)
    requires Mergeable(a, c, idx)
    ensures Covers(Merge(a, c, idx), keys) <==> Covers(a, keys) || Covers(c, keys)
  {
    var m := Merge(a, c, idx);
    MergeShape(a, c, idx);
    if Covers(m, keys) && !Covers(a, keys) {
      assert keys[idx] !in a[idx];
      forall g | 0 <= g < |c|
        ensures keys[g] in c[g]
      {
        if g == idx {
          assert keys[idx] in a[idx] + c[idx];
        }
      }
    }
  }

  lemma CoveredAppend(ps: seq<Path>, qs: seq<Path>, keys: seq<string>)
    ensures Covered(ps + qs, keys) <==> Covered(ps, keys) || Covered(qs, keys)
  {
    if Covered(ps + qs, keys) {
      var p :| p in ps + qs && Covers(p, keys);
    }
    if Covered(ps, keys) {
      var p :| p in ps && Covers(p, keys);
      assert p in ps + qs;
    }
    if Covered(qs, keys) {
      var p :| p in qs && Covers(p, keys);
      assert p in ps + qs;
    }
  }

  /** Removing one path loses only what that path covered. */
  lemma RemoveFirstCovered(cases: seq<Path>, c: Path, keys: seq<string>)
    requires c in cases
    ensures Covered(cases, keys) <==> Covers(c, keys) || Covered(RemoveFirst(cases, c), keys)
  {
    var r := RemoveFirst(cases, c);
    if Covered(cases, keys) && !Covers(c, keys) {
      var p :| p in cases && Covers(p, keys);
      assert p in multiset(cases) && p != c;
      assert p in multiset(r);
    }
    if Covered(r, keys) {
      var p :| p in r && Covers(p, keys);
      assert p in multiset(r);
      assert p in multiset(cases);
    }
  }

  /** The scan's anchor and remaining list cover what its inputs covered. */
  lemma {:induction false} ScanCovers(anchor: Path, cases: seq<Path>, snap: seq<Path>, idx: nat, keys: seq<string>)
    requires multiset(snap) <= multiset(cases)
    ensures var r := Scan(anchor, cases, snap, idx);
      Covers(r.0, keys) || Covered(r.1, keys) <==> Covers(anchor, keys) || Covered(cases, keys)
    decreases |snap|
  {
    if |snap| > 0 {
      var cand := snap[|snap| - 1];
      var rest := snap[..|snap| - 1];
      assert snap == rest + [cand];
      if Mergeable(anchor, cand, idx) {
        assert cand in multiset(snap);
        assert cand in cases;
        ScanCovers(Merge(anchor, cand, idx), RemoveFirst(cases, cand), rest, idx, keys);
        MergeCovers(anchor, cand, idx, keys);
        RemoveFirstCovered(cases, cand, keys);
      } else {
        ScanCovers(anchor, cases, rest, idx, keys);
      }
    }
  }

  /** A pass describes exactly the calls its input described. */
  lemma {:induction false} PassCovers(cases: seq<Path>, idx: nat, keys: seq<string>)
    ensures Covered(Pass(cases, idx), keys) <==> Covered(cases, keys)
    decreases |cases|
  {
    if |cases| > 0 {
      var rest := cases[..|cases| - 1];
      var anchor := cases[|cases| - 1];
      var r := Scan(anchor, rest, rest, idx);
      ScanCovers(anchor, rest, rest, idx, keys);
      PassCovers(r.1, idx, keys);
      CoveredAppend([r.0], Pass(r.1, idx), keys);
      assert cases == rest + [anchor];
      CoveredAppend(rest, [anchor], keys);
      assert Covered([r.0], keys) <==> Covers(r.0, keys) by {
        assert r.0 in [r.0];
      }
      assert Covered([anchor], keys) <==> Covers(anchor, keys) by {
        assert anchor in [anchor];
      }
    }
  }

  // ---------------------------------------------------------------------
  // Multiplicity: how many paths of a list describe one call.
  // ---------------------------------------------------------------------

  /** The number of positions of `ps` whose path covers `keys`. */
  function CoverCount(ps: seq<Path>, keys: seq<string>): (r: nat)
  {
    if |ps| == 0 then 0
    else (if Covers(ps[0], keys) then 1 else 0) + CoverCount(ps[1..], keys)
  }

  /** A call is counted at least once exactly when some path covers it. */
  lemma {:induction false} CoverCountCovered(ps: seq<Path>, keys: seq<string>)
    ensures CoverCount(ps, keys) > 0 <==> Covered(ps, keys)
  {
    if |ps| > 0 {
      CoverCountCovered(ps[1..], keys);
      assert ps == [ps[0]] + ps[1..];
      CoveredAppend([ps[0]], ps[1..], keys);
      assert Covered([ps[0]], keys) <==> Covers(ps[0], keys) by {
        assert ps[0] in [ps[0]];
      }
    }
  }

  lemma {:induction false} CoverCountAppend(ps: seq<Path>, qs: seq<Path>, keys: seq<string>)
    ensures CoverCount(ps + qs, keys) == CoverCount(ps, keys) + CoverCount(qs, keys)
  {
    if |ps| > 0 {
      assert (ps + qs)[1..] == ps[1..] + qs;
      CoverCountAppend(ps[1..], qs, keys);
    } else {
      assert ps + qs == qs;
    }
  }

  /** Removing one path removes exactly its own count. */
  lemma {:induction false} CoverCountRemoveFirst(s: seq<Path>, x: Path, keys: seq<string>)
    requires x in s
    ensures CoverCount(RemoveFirst(s, x), keys) + (if Covers(x, keys) then 1 else 0)
      == CoverCount(s, keys)
  {
    if s[0] != x {
      RemoveFirstSkip(s, x);
      CoverCountRemoveFirst(s[1..], x, keys);
      assert ([s[0]] + RemoveFirst(s[1..], x))[1..] == RemoveFirst(s[1..], x);
    }
  }

  /** The scan never lets more of its paths cover a call than before. */
  lemma {:induction false} ScanCount(anchor: Path, cases: seq<Path>, snap: seq<Path>, idx: nat, keys: seq<string>)
    requires multiset(snap) <= multiset(cases)
    ensures var r := Scan(anchor, cases, snap, idx);
      (if Covers(r.0, keys) then 1 else 0) + CoverCount(r.1, keys)
        <= (if Covers(anchor, keys) then 1 else 0) + CoverCount(cases, keys)
    decreases |snap|
  {
    if |snap| > 0 {
      var cand := snap[|snap| - 1];
      var rest := snap[..|snap| - 1];
      assert snap == rest + [cand];
      if Mergeable(anchor, cand, idx) {
        assert cand in multiset(snap);
        ScanCount(Merge(anchor, cand, idx), RemoveFirst(cases, cand), rest, idx, keys);
        MergeCovers(anchor, cand, idx, keys);
        CoverCountRemoveFirst(cases, cand, keys);
      } else {
        ScanCount(anchor, cases, rest, idx, keys);
      }
    }
  }

  /** A pass never describes a call more often than its input did: the
      merged groups of one path never overlap. */
  lemma {:induction false} PassCount(cases: seq<Path>, idx: nat, keys: seq<string>)
    ensures CoverCount(Pass(cases, idx), keys) <= CoverCount(cases, keys)
    decreases |cases|
  {
    if |cases| > 0 {
      var rest := cases[..|cases| - 1];
      var anchor := cases[|cases| - 1];
      var r := Scan(anchor, rest, rest, idx);
      ScanCount(anchor, rest, rest, idx, keys);
      PassCount(r.1, idx, keys);
      assert ([r.0] + Pass(r.1, idx))[1..] == Pass(r.1, idx);
      assert cases == rest + [anchor];
      CoverCountAppend(rest, [anchor], keys);
      assert CoverCount([anchor], keys) == if Covers(anchor, keys) then 1 else 0;
    }
  }

  // ---------------------------------------------------------------------
  // Conservation: the calls described, counted with multiplicity.
  // ---------------------------------------------------------------------

  /** Number of calls a path describes: the product of its group sizes. */
  function Weight(p: Path): (r: nat)
  {
    if |p| == 0 then 1 else Weight(p[..|p| - 1]) * |p[|p| - 1]|
  }

  function TotalWeight(ps: seq<Path>): (r: nat)
  {
    if |ps| == 0 then 0 else Weight(ps[0]) + TotalWeight(ps[1..])
  }

  lemma {:induction false} WeightAppend(p: Path, q: Path)
    ensures Weight(p + q) == Weight(p) * Weight(q)
    decreases |q|
  {
    if |q| == 0 {
      assert p + q == p;
    } else {
      var q' := q[..|q| - 1];
      assert (p + q)[..|p + q| - 1] == p + q';
      WeightAppend(p, q');
      assert Weight(p + q) == Weight(p) * Weight(q') * |q[|q| - 1]|;
    }
  }

  lemma WeightSplit(pre: Path, g: Group, suf: Path)
    ensures Weight(pre + [g] + suf) == Weight(pre) * |g| * Weight(suf)
  {
    WeightAppend(pre + [g], suf);
    WeightAppend(pre, [g]);
    assert [g][..0] == [];
  }

  /** Folding adds the candidate's calls to the anchor's. */
  lemma MergeWeight(a: Path, c: Path, idx: nat)
    requires Mergeable(a, c, idx)
    ensures Weight(Merge(a, c, idx)) == Weight(a) + Weight(c)
  {
    var pre := a[..idx];
    var suf := a[idx + 1..];
    assert a == pre + [a[idx]] + suf;
    assert c == pre + [c[idx]] + suf;
    WeightSplit(pre, a[idx] + c[idx], suf);
    WeightSplit(pre, a[idx], suf);
    WeightSplit(pre, c[idx], suf);
    assert |a[idx] + c[idx]| == |a[idx]| + |c[idx]|;
    Distribute(Weight(pre), |a[idx]|, |c[idx]|, Weight(suf));
  }

  lemma Distribute(x: nat, y: nat, w: nat, z: nat)
    ensures x * (y + w) * z == x * y * z + x * w * z
  {
    assert x * (y + w) == x * y + x * w;
  }

  lemma {:induction false} TotalWeightRemoveFirst(s: seq<Path>, x: Path)
    requires x in s
    ensures TotalWeight(RemoveFirst(s, x)) + Weight(x) == TotalWeight(s)
  {
    if s[0] != x {
      TotalWeightRemoveFirst(s[1..], x);
      assert ([s[0]] + RemoveFirst(s[1..], x))[1..] == RemoveFirst(s[1..], x);
    }
  }

  lemma {:induction false} TotalWeightSnoc(s: seq<Path>, x: Path)
    ensures TotalWeight(s + [x]) == TotalWeight(s) + Weight(x)
  {
    if |s| == 0 {
      assert ([] + [x])[1..] == [];
    } else {
      assert (s + [x])[1..] == s[1..] + [x];
      TotalWeightSnoc(s[1..], x);
    }
  }

  lemma {:induction false} ScanWeight(anchor: Path, cases: seq<Path>, snap: seq<Path>, idx: nat)
    requires multiset(snap) <= multiset(cases)
    ensures var r := Scan(anchor, cases, snap, idx);
      Weight(r.0) + TotalWeight(r.1) == Weight(anchor) + TotalWeight(cases)
    decreases |snap|
  {
    if |snap| > 0 {
      var cand := snap[|snap| - 1];
      var rest := snap[..|snap| - 1];
      assert snap == rest + [cand];
      if Mergeable(anchor, cand, idx) {
        assert cand in multiset(snap);
        ScanWeight(Merge(anchor, cand, idx), RemoveFirst(cases, cand), rest, idx);
        MergeWeight(anchor, cand, idx);
        TotalWeightRemoveFirst(cases, cand);
      } else {
        ScanWeight(anchor, cases, rest, idx);
      }
    }
  }

  /** A pass neither loses nor duplicates a call: the number of calls
      described, counted with multiplicity, is unchanged. */
  lemma {:induction false} PassWeight(cases: seq<Path>, idx: nat)
    ensures TotalWeight(Pass(cases, idx)) == TotalWeight(cases)
    decreases |cases|
  {
    if |cases| > 0 {
      var rest := cases[..|cases| - 1];
      var anchor := cases[|cases| - 1];
      var r := Scan(anchor, rest, rest, idx);
      ScanWeight(anchor, rest, rest, idx);
      PassWeight(r.1, idx);
      assert ([r.0] + Pass(r.1, idx))[1..] == Pass(r.1, idx);
      assert cases == rest + [anchor];
      TotalWeightSnoc(rest, anchor);
    }
  }

  // ---------------------------------------------------------------------
  // Paths too short to have a group `idx` are never folded.
  // ---------------------------------------------------------------------

  function Reverse<T>(s: seq<T>): (r: seq<T>)
    ensures |r| == |s|
    ensures forall i :: 0 <= i < |s| ==> r[i] == s[|s| - 1 - i]
  {
    if |s| == 0 then [] else [s[|s| - 1]] + Reverse(s[..|s| - 1])
  }

  /** A scan whose candidates all fail to match leaves everything as is. */
  lemma {:induction false} ScanNoFold(anchor: Path, cases: seq<Path>, snap: seq<Path>, idx: nat)
    requires multiset(snap) <= multiset(cases)
    requires forall i :: 0 <= i < |snap| ==> !Mergeable(anchor, snap[i], idx)
    ensures Scan(anchor, cases, snap, idx) == (anchor, cases)
    decreases |snap|
  {
    if |snap| > 0 {
      ScanUnfold(anchor, cases, snap, idx);
      ScanNoFold(anchor, cases, snap[..|snap| - 1], idx);
    }
  }

  /** When no path can fold into a later one, the pass only reverses the
      list. */
  lemma {:induction false} PassNoFold(cases: seq<Path>, idx: nat)
    requires forall i, j :: 0 <= i < j < |cases| ==> !Mergeable(cases[j], cases[i], idx)
    ensures Pass(cases, idx) == Reverse(cases)
    decreases |cases|
  {
    if |cases| > 0 {
      var rest := cases[..|cases| - 1];
      ScanNoFold(cases[|cases| - 1], rest, rest, idx);
      PassNoFold(rest, idx);
    }
  }

  /** Paths too short to have a group `idx` never fold: when no path
      reaches index `idx` the pass only reverses the list. */
  lemma PassShort(cases: seq<Path>, idx: nat)
    requires forall i :: 0 <= i < |cases| ==> |cases[i]| <= idx
    ensures Pass(cases, idx) == Reverse(cases)
  {
    PassNoFold(cases, idx);
  }
}

=== FILE: paths.dfy ===
/** The access paths of a mapping, as the documentation lists them. A path
    is a sequence of argument groups: one group per macro argument, each
    group listing the keys that argument may take. Before factorization
    every group holds exactly one key. */
module Paths {
  import opened Tree

  type Group = seq<string>
  type Path = seq<Group>

  /** The one-key-per-argument path of a key chain. */
  function Singletons(keys: seq<string>): (p: Path)
  {
    seq(|keys|, g requires 0 <= g < |keys| => [keys[g]])
  }

  /** Every path below a nested mapping, behind that mapping's key. */
  function Prefixed(key: string, ps: seq<Path>): (r: seq<Path>)
  {
    seq(|ps|, j requires 0 <= j < |ps| => [[key]] + ps[j])
  }

  /** The paths to the scalars of the first `i` pairs of `es`, in the
      order of the pairs and depth first. */
  function Cases(es: seq<Entry>, i: nat): (r: seq<Path>)
    requires i <= |es|
    decreases Branch(es), i
  {
    if i == 0 then []
    else
      var prev := Cases(es, i - 1);
      match es[i - 1].1
      case Leaf(_) => prev + [[[es[i - 1].0]]]
      case Branch(ces) => prev + Prefixed(es[i - 1].0, Cases(ces, |ces|))
  }

  /** Every combination of arguments that reaches a scalar of `es`. */
  function Enumerate(es: seq<Entry>): (r: seq<Path>)
  {
    Cases(es, |es|)
  }

  lemma PrefixedMember(key: string, ps: seq<Path>, p: Path)
    ensures p in Prefixed(key, ps) <==> |p| >= 1 && p[0] == [key] && p[1..] in ps
  {
    var r := Prefixed(key, ps);
    if p in r {
      var j :| 0 <= j < |r| && r[j] == p;
      assert p[1..] == ps[j];
    }
    if |p| >= 1 && p[0] == [key] && p[1..] in ps {
      var j :| 0 <= j < |ps| && ps[j] == p[1..];
      assert r[j] == p;
    }
  }

  /** A path among the first `i` pairs starts at one of those pairs: with
      its key alone when it holds a scalar, and continues with a path of
      the nested mapping otherwise. */
  lemma {:induction false} CasesMember(es: seq<Entry>, i: nat, p: Path)
    requires i <= |es|
    ensures p in Cases(es, i) <==>
      exists j :: 0 <= j < i && StartsAt(es[j], p)
    decreases i
  {
    if i > 0 {
      CasesMember(es, i - 1, p);
      var e := es[i - 1];
      var prev := Cases(es, i - 1);
      var here := match e.1
        case Leaf(_) => [[[e.0]]]
        case Branch(ces) => Prefixed(e.0, Cases(ces, |ces|));
      assert Cases(es, i) == prev + here;
      assert p in Cases(es, i) <==> p in prev || p in here;
      match e.1
      case Leaf(_) =>
        if |p| == 1 && p[0] == [e.0] {
          assert p == [[e.0]];
        }
        assert p in here <==> StartsAt(e, p);
      case Branch(ces) =>
        PrefixedMember(e.0, Cases(ces, |ces|), p);
        assert p in here <==> StartsAt(e, p);
    }
  }

  /** `p` leads to a scalar through the pair `e`. */
  predicate StartsAt(e: Entry, p: Path)
  {
    && |p| >= 1
    && p[0] == [e.0]
    && match e.1
       case Leaf(_) => |p| == 1
       case Branch(ces) => p[1..] in Enumerate(ces)
  }

  /** The enumeration lists exactly the valid access paths, each as its
      one-key-per-argument path. */
  lemma {:induction false} EnumerateLeafPaths(es: seq<Entry>, keys: seq<string>)
    ensures Singletons(keys) in Enumerate(es) <==> IsLeafPath(es, keys)
    decreases |keys|
  {
    var p := Singletons(keys);
    CasesMember(es, |es|, p);
    if |keys| >= 1 {
      assert p[1..] == Singletons(keys[1..]);
      forall j | 0 <= j < |es| && es[j].1.Branch?
        ensures p[1..] in Enumerate(es[j].1.entries) <==> IsLeafPath(es[j].1.entries, keys[1..])
      {
        EnumerateLeafPaths(es[j].1.entries, keys[1..]);
      }
      if IsLeafPath(es, keys) {
        var j :| 0 <= j < |es| && es[j].0 == keys[0] &&
          match es[j].1
          case Leaf(_) => |keys| == 1
          case Branch(ces) => IsLeafPath(ces, keys[1..]);
        assert StartsAt(es[j], p);
      }
    }
  }

  /** Every enumerated path is non-empty and names one key per argument. */
  lemma {:induction false} EnumerateSingletons(es: seq<Entry>, p: Path)
    requires p in Enumerate(es)
    ensures |p| >= 1
    ensures forall g :: 0 <= g < |p| ==> |p[g]| == 1
    ensures p == Singletons(Keys(p))
    decreases Branch(es)
  {
    CasesMember(es, |es|, p);
    var j :| 0 <= j < |es| && StartsAt(es[j], p);
    match es[j].1
    case Leaf(_) =>
    case Branch(ces) =>
      assert es[j] in es;
      EnumerateSingletons(ces, p[1..]);
      assert p == [p[0]] + p[1..];
  }

  /** The first key of each group. */
  function Keys(p: Path): (keys: seq<string>)
    requires forall g :: 0 <= g < |p| ==> |p[g]| >= 1
    ensures |keys| == |p|
  {
    seq(|p|, g requires 0 <= g < |p| => p[g][0])
  }

  /** There is one path per scalar, nested ones included. */
  lemma {:induction false} CasesCount(es: seq<Entry>, i: nat)
    requires i <= |es|
    ensures |Cases(es, i)| == LeafCount(es, i)
    decreases Branch(es), i
  {
    if i > 0 {
      CasesCount(es, i - 1);
      match es[i - 1].1
      case Leaf(_) =>
      case Branch(ces) =>
        CasesCount(ces, |ces|);
    }
  }
}

=== FILE: results.dfy ===
/** Failure-carrying return types used across the model. */
module Results {

  datatype Option<+T> = None | Some(value: T)

  datatype Result<+T, +E> = Ok(value: T) | Err(error: E)
}

=== FILE: scenarios.dfy ===
/** Worked instances: the mapping of the class's own usage example, a
    mapping whose two nested mappings share their only path below the top
    level, and mappings that hold no scalar. */
module Scenarios {
  import opened Results
  import opened Text
  import opened Tree
  import opened Compiler
  import opened Dispatch
  import opened Paths
  import opened Factorize
  import opened Documentation

  /** `{"foo": "bar", "sub dict": {"a": 1, "b": 42}}`, values already
      printed with `str`. */
  const Usage: seq<Entry> := [("foo", Leaf("bar")), ("sub dict", Branch([("a", Leaf("1")), ("b", Leaf("42"))]))]

  /** `{"a": {"x": 1}, "b": {"x": 1}}` */
  const Twins: seq<Entry> := [("a", Branch([("x", Leaf("1"))])), ("b", Branch([("x", Leaf("1"))]))]

  /** No key repeats in the usage mapping, at any depth. */
  lemma UsageUnique()
    ensures UniqueKeys(Usage)
  {
    assert UniqueKeys(Usage[1].1.entries);
  }

  /** `\data{foo}` gives `bar`. */
  lemma UsageCallScalar()
    ensures Lookup(Compile("data", Usage), "data", ["foo"]) == Some("bar")
  {
    UsageUnique();
    CompiledLookup("data", Usage, ["foo"]);
  }

  /** `\data{sub dict}{b}` gives `42`. */
  lemma UsageCallNested()
    ensures Lookup(Compile("data", Usage), "data", ["sub dict", "b"]) == Some("42")
  {
    UsageUnique();
    CompiledLookup("data", Usage, ["sub dict", "b"]);
    var sub := Usage[1].1;
    assert FindEntry(Usage, "sub dict") == Some(sub);
    assert FindEntry(sub.entries, "b") == Some(Leaf("42"));
    assert Get(sub, ["b"]) == Some("42");
    assert ["sub dict", "b"][1..] == ["b"];
  }

  /** A call that stops at the nested mapping gives nothing. */
  lemma UsageCallShort()
    ensures Lookup(Compile("data", Usage), "data", ["sub dict"]) == None
  {
    UsageUnique();
    CompiledLookup("data", Usage, ["sub dict"]);
  }

  /** The usage mapping compiles to the nested mapping's macro, `data@i`,
      followed by the root macro, whose body lists the scalar branch before
      the redirection. */
  lemma UsageDefinitions()
    ensures Compile("data", Usage)
         == [ Definition("data@i", 1, [Case("a", Emit("1")), Case("b", Emit("42"))]),
              Definition("data", 1, [Case("foo", Emit("bar")), Case("sub dict", Redirect(1, "data@i"))]) ]
  {
    var sub := Usage[1].1.entries;
    var child := Definition("data@i", 1, [Case("a", Emit("1")), Case("b", Emit("42"))]);
    var s1 := LoopState([Case("a", Emit("1"))], [], [], 1);
    var s2 := LoopState([Case("a", Emit("1")), Case("b", Emit("42"))], [], [], 1);
    assert Loop("data@i", sub, 2, s2) == s2;
    assert Loop("data@i", sub, 1, s1) == s2;
    assert Loop("data@i", sub, 0, Start) == s2;
    assert s2.leaves + s2.redirections == s2.leaves;
    assert Compile("data@i", sub) == [] + [child];
    var t1 := LoopState([Case("foo", Emit("bar"))], [], [], 1);
    assert ChildName("data", 1) == "data@i";
    var t2 := LoopState([Case("foo", Emit("bar"))], [Case("sub dict", Redirect(1, "data@i"))], [child], 3);
    assert Step("data", t1, "sub dict", Branch(sub)) == t2;
    assert Loop("data", Usage, 2, t2) == t2;
    assert Loop("data", Usage, 1, t1) == t2;
    assert Loop("data", Usage, 0, Start) == t2;
    var root := Definition("data", 1, [Case("foo", Emit("bar")), Case("sub dict", Redirect(1, "data@i"))]);
    assert t2.leaves + t2.redirections == root.cases;
    assert Compile("data", Usage) == t2.subDefinitions + [root] == [child, root];
  }

  lemma UsageCases()
    ensures Enumerate(Usage) == [[["foo"]], [["sub dict"], ["a"]], [["sub dict"], ["b"]]]
  {
    var sub := Usage[1].1.entries;
    assert Cases(sub, 1) == [[["a"]]];
    assert Cases(sub, 2) == [[["a"]], [["b"]]];
    assert Cases(Usage, 1) == [[["foo"]]];
    var below := Prefixed("sub dict", Cases(sub, 2));
    assert below[0] == [["sub dict"]] + [["a"]] == [["sub dict"], ["a"]];
    assert below[1] == [["sub dict"]] + [["b"]] == [["sub dict"], ["b"]];
    assert below == [[["sub dict"], ["a"]], [["sub dict"], ["b"]]];
  }

  /** At index 0 nothing folds (the two nested paths share their first
      group) and the pass reverses the list. */
  lemma UsageFirstPass()
    ensures var foo: Path := [["foo"]];
      var a: Path := [["sub dict"], ["a"]];
      var b: Path := [["sub dict"], ["b"]];
      Pass([foo, a, b], 0) == [b, a, foo]
  {
    var foo: Path := [["foo"]];
    var a: Path := [["sub dict"], ["a"]];
    var b: Path := [["sub dict"], ["b"]];
    var cases := [foo, a, b];
    assert !Mergeable(b, a, 0) && !Mergeable(b, foo, 0) && !Mergeable(a, foo, 0);
    PassNoFold(cases, 0);
  }

  /** The `a` path folds in the `b` path at index 1. */
  lemma UsageFold()
    ensures var a: Path := [["sub dict"], ["a"]];
      var b: Path := [["sub dict"], ["b"]];
      Pass([b, a], 1) == [[["sub dict"], ["a", "b"]]]
  {
    var a: Path := [["sub dict"], ["a"]];
    var b: Path := [["sub dict"], ["b"]];
    var ab: Path := [["sub dict"], ["a", "b"]];
    assert a[..1] == b[..1] == [["sub dict"]] && a[2..] == b[2..] == [];
    assert a[1] != b[1] by {
      assert a[1][0] == "a" && b[1][0] == "b";
    }
    assert Mergeable(a, b, 1);
    assert ["a"] + ["b"] == ["a", "b"];
    assert Merge(a, b, 1) == [["sub dict"]] + [["a", "b"]] + [] == ab;
    assert RemoveFirst([b], b) == [];
    ScanUnfold(a, [b], [b], 1);
    assert [b][..0] == [];
    assert Scan(a, [b], [b], 1) == (ab, []);
    PassSnoc([b], a, 1);
    assert [b] + [a] == [b, a];
  }

  /** At index 1 the `a` path folds in the `b` path; `foo` is too short. */
  lemma UsageSecondPass()
    ensures var foo: Path := [["foo"]];
      var a: Path := [["sub dict"], ["a"]];
      var b: Path := [["sub dict"], ["b"]];
      Pass([b, a, foo], 1) == [foo, [["sub dict"], ["a", "b"]]]
  {
    var foo: Path := [["foo"]];
    var a: Path := [["sub dict"], ["a"]];
    var b: Path := [["sub dict"], ["b"]];
    assert !Mergeable(foo, a, 1) && !Mergeable(foo, b, 1);
    ScanNoFold(foo, [b, a], [b, a], 1);
    UsageFold();
    PassSnoc([b, a], foo, 1);
    assert [b, a] + [foo] == [b, a, foo];
  }

  lemma UsageFactorized()
    ensures Factorized(Usage) == Ok([[["foo"]], [["sub dict"], ["a", "b"]]])
  {
    var foo: Path := [["foo"]];
    var a: Path := [["sub dict"], ["a"]];
    var b: Path := [["sub dict"], ["b"]];
    var ab: Path := [["sub dict"], ["a", "b"]];
    UsageCases();
    assert MaxLength([foo, a, b]) == 2;
    UsageFirstPass();
    UsageSecondPass();
    assert Passes([foo, ab], 2, 2) == [foo, ab];
    assert Passes([b, a, foo], 1, 2) == [foo, ab];
    assert Passes([foo, a, b], 0, 2) == [foo, ab];
  }

  lemma UsageArguments()
    ensures Arguments([["foo"]]) == "{foo}"
    ensures Arguments([["sub dict"], ["a", "b"]]) == "{sub dict}{a/b}"
  {
    var ab: Path := [["sub dict"], ["a", "b"]];
    assert [["foo"]][1..] == [];
    assert Join(["foo"], "/") == "foo";
    assert Join(["sub dict"], "/") == "sub dict";
    assert Join(["a", "b"], "/") == "a/b";
    assert Argument(["a", "b"]) == "{a/b}";
    assert ab[1..] == [["a", "b"]] && [["a", "b"]][1..] == [];
    assert Arguments([["a", "b"]]) == "{a/b}";
  }

  lemma UsageLineTexts()
    ensures UsageLine("data", [["foo"]]) == "% \\data{foo}"
    ensures UsageLine("data", [["sub dict"], ["a", "b"]]) == "% \\data{sub dict}{a/b}"
  {
    UsageArguments();
  }

  lemma TwoLines(name: string, p: Path, q: Path)
    ensures RenderDoc(name, [p, q]) == DocTitle + "\n" + UsageLine(name, p) + "\n" + UsageLine(name, q) + "\n"
  {
    assert [p, q][1..] == [q] && [q][1..] == [];
    assert UsageLines(name, [q]) == UsageLine(name, q) + "\n";
    assert UsageLines(name, [p, q]) == UsageLine(name, p) + "\n" + (UsageLine(name, q) + "\n");
  }

  lemma UsageText()
    ensures RenderDoc("data", [[["foo"]], [["sub dict"], ["a", "b"]]])
         == DocTitle + "\n" + "% \\data{foo}" + "\n" + "% \\data{sub dict}{a/b}" + "\n"
  {
    UsageLineTexts();
    TwoLines("data", [["foo"]], [["sub dict"], ["a", "b"]]);
  }

  /** The usage comment of the usage mapping merges `a` and `b` into one
      argument and lists `foo` first. */
  lemma UsageDoc()
    ensures GenerateDoc("data", Usage)
         == Ok(DocTitle + "\n" + "% \\data{foo}" + "\n" + "% \\data{sub dict}{a/b}" + "\n")
  {
    UsageFactorized();
    UsageText();
  }

  lemma TwinsCases()
    ensures Enumerate(Twins) == [[["a"], ["x"]], [["b"], ["x"]]]
  {
    var x := Twins[0].1.entries;
    assert Cases(x, 1) == [[["x"]]];
    var pa := Prefixed("a", [[["x"]]]);
    var pb := Prefixed("b", [[["x"]]]);
    assert pa[0] == [["a"]] + [["x"]] == [["a"], ["x"]];
    assert pb[0] == [["b"]] + [["x"]] == [["b"], ["x"]];
    assert Cases(Twins, 1) == [] + pa == [[["a"], ["x"]]];
    assert Cases(Twins, 2) == Cases(Twins, 1) + pb;
  }

  /** At index 0 the first path folds into the second, the anchor. */
  lemma TwinsFirstPass()
    ensures Pass([[["a"], ["x"]], [["b"], ["x"]]], 0) == [[["b", "a"], ["x"]]]
  {
    var a: Path := [["a"], ["x"]];
    var b: Path := [["b"], ["x"]];
    var ba: Path := [["b", "a"], ["x"]];
    assert a[1..] == b[1..] == [["x"]];
    assert a[0] != b[0] by {
      assert a[0][0] == "a" && b[0][0] == "b";
    }
    assert Mergeable(b, a, 0);
    assert b[..0] == [] && b[1..] == [["x"]];
    assert ["b"] + ["a"] == ["b", "a"];
    assert Merge(b, a, 0) == [] + [["b", "a"]] + [["x"]] == ba;
    assert RemoveFirst([a], a) == [];
    ScanUnfold(b, [a], [a], 0);
    assert [a][..0] == [];
    assert Scan(b, [a], [a], 0) == (ba, []);
    PassSnoc([a], b, 0);
    assert [a] + [b] == [a, b];
  }

  /** The two nested mappings' paths fold into one, and the anchor, the
      last path, keeps its key first: the group reads `b/a`. */
  lemma TwinsFactorized()
    ensures Factorized(Twins) == Ok([[["b", "a"], ["x"]]])
  {
    var a: Path := [["a"], ["x"]];
    var b: Path := [["b"], ["x"]];
    var ba: Path := [["b", "a"], ["x"]];
    TwinsCases();
    assert MaxLength([a, b]) == 2;
    TwinsFirstPass();
    PassSnoc([], ba, 1);
    assert [] + [ba] == [ba];
    assert Pass([ba], 1) == [ba];
    assert Passes([ba], 2, 2) == [ba];
    assert Passes([ba], 1, 2) == [ba];
    assert Passes([a, b], 0, 2) == [ba];
  }

  lemma TwinsArguments()
    ensures Arguments([["b", "a"], ["x"]]) == "{b/a}{x}"
  {
    var ba: Path := [["b", "a"], ["x"]];
    assert Join(["b", "a"], "/") == "b/a";
    assert Argument(["b", "a"]) == "{b/a}";
    assert Argument(["x"]) == "{x}";
    assert ba[1..] == [["x"]] && [["x"]][1..] == [];
    assert Arguments([["x"]]) == "{x}";
  }

  lemma TwinsText()
    ensures RenderDoc("d", [[["b", "a"], ["x"]]]) == "% How to use:\n% \\d{b/a}{x}\n"
  {
    TwinsArguments();
    assert UsageLine("d", [["b", "a"], ["x"]]) == "% \\d{b/a}{x}";
  }

  lemma TwinsDoc()
    ensures GenerateDoc("d", Twins) == Ok("% How to use:\n% \\d{b/a}{x}\n")
  {
    TwinsFactorized();
    TwinsText();
  }

  /** Without a scalar there is no usage comment, but the macros are still
      defined: one per mapping. */
  lemma NoScalar()
    ensures GenerateDoc("d", []).Err?
    ensures GenerateDoc("d", [("e", Branch([]))]).Err?
    ensures |Compile("d", [("e", Branch([]))])| == 2
  {
    GenerateDocFails("d", []);
    GenerateDocFails("d", [("e", Branch([]))]);
    DefinitionCount("d", [("e", Branch([]))]);
  }
}

=== FILE: text.dfy ===
/** Small string utilities shared by the emitters: Python's `str.join`,
    `str.split`, string repetition and `str()` of a non-negative integer. */
module Text {

  /** The parts with `sep` between each two of them. */
  function Join(parts: seq<string>, sep: string): (r: string)
  {
    if |parts| == 0 then ""
    else if |parts| == 1 then parts[0]
    else parts[0] + sep + Join(parts[1..], sep)
  }

  /** `s.split(sep)` for a one-character separator; like Python it always
      yields at least one piece, and `"".split(sep) == [""]`. */
  function Split(s: string, sep: char): (r: seq<string>)
    ensures |r| >= 1
  {
    if |s| == 0 then [""]
    else
      var rest := Split(s[1..], sep);
      if s[0] == sep then [""] + rest
      else [[s[0]] + rest[0]] + rest[1..]
  }

  /** `c * n` */
  function Repeat(c: char, n: nat): (r: string)
    ensures |r| == n
    ensures forall i :: 0 <= i < n ==> r[i] == c
  {
    if n == 0 then "" else [c] + Repeat(c, n - 1)
  }

  predicate IsDigit(c: char)
  {
    '0' <= c <= '9'
  }

  function DigitChar(d: nat): (c: char)
    requires d < 10
    ensures IsDigit(c)
  {
    "0123456789"[d]
  }

  function DigitValue(c: char): (r: nat)
    requires IsDigit(c)
  {
    (c as int - '0' as int) as nat
  }

  /** `str(n)` for a non-negative integer: decimal, no leading zero. */
  function NatToString(n: nat): (r: string)
    ensures |r| >= 1
    ensures forall i :: 0 <= i < |r| ==> IsDigit(r[i])
    ensures |r| > 1 ==> r[0] != '0'
  {
    if n < 10 then [DigitChar(n)]
    else NatToString(n / 10) + [DigitChar(n % 10)]
  }

  /** Reads a string of decimal digits back as a number. */
  function ParseNat(s: string): (r: nat)
    requires forall i :: 0 <= i < |s| ==> IsDigit(s[i])
  {
    if |s| == 0 then 0
    else 10 * ParseNat(s[..|s| - 1]) + DigitValue(s[|s| - 1])
  }

  lemma {:induction false} ParseNatToString(n: nat)
    ensures ParseNat(NatToString(n)) == n
  {
    if n >= 10 {
      var s := NatToString(n);
      var d := DigitChar(n % 10);
      assert s == NatToString(n / 10) + [d];
      assert s[..|s| - 1] == NatToString(n / 10);
      ParseNatToString(n / 10);
      assert DigitValue(d) == n % 10 by {
        assert "0123456789"[0] == '0';
      }
    } else {
      assert DigitValue(DigitChar(n)) == n;
    }
  }

  /** Distinct numbers print as distinct strings. */
  lemma NatToStringInjective(m: nat, n: nat)
    requires NatToString(m) == NatToString(n)
    ensures m == n
  {
    ParseNatToString(m);
    ParseNatToString(n);
  }

  /** A piece that contains no separator splits to itself, and stays the
      head of the pieces of any text it prefixes. */
  lemma {:induction false} SplitPrefix(a: string, rest: string, sep: char)
    requires sep !in a
    ensures Split(a + rest, sep) == [a + Split(rest, sep)[0]] + Split(rest, sep)[1..]
  {
    if |a| > 0 {
      var x := Split(rest, sep);
      assert (a + rest)[0] == a[0] && a[0] != sep;
      assert (a + rest)[1..] == a[1..] + rest;
      SplitPrefix(a[1..], rest, sep);
      var r := Split(a[1..] + rest, sep);
      assert r[0] == a[1..] + x[0] && r[1..] == x[1..];
      assert Split(a + rest, sep) == [[a[0]] + r[0]] + r[1..];
      assert [a[0]] + (a[1..] + x[0]) == a + x[0];
    } else {
      assert a + rest == rest;
      var r := Split(rest, sep);
      assert a + r[0] == r[0];
      assert r == [r[0]] + r[1..];
    }
  }

  lemma {:induction false} SplitJoin(parts: seq<string>, sep: char)
    requires |parts| >= 1
    requires forall i :: 0 <= i < |parts| ==> sep !in parts[i]
    ensures Split(Join(parts, [sep]), sep) == parts
  {
    if |parts| == 1 {
      SplitPrefix(parts[0], "", sep);
      assert parts[0] + "" == parts[0];
    } else {
      var tail := Join(parts[1..], [sep]);
      SplitJoin(parts[1..], sep);
      assert Join(parts, [sep]) == parts[0] + ([sep] + tail);
      SplitPrefix(parts[0], [sep] + tail, sep);
      assert ([sep] + tail)[1..] == tail;
      assert Split([sep] + tail, sep) == [""] + parts[1..];
      assert Split(Join(parts, [sep]), sep) == [parts[0] + ""] + parts[1..];
      assert parts[0] + "" == parts[0];
      assert parts == [parts[0]] + parts[1..];
    }
  }
}

=== FILE: tree.dfy ===
/** The input of the compiler: an ordered, possibly nested key-value
    mapping whose non-mapping values are already rendered as text. */
module Tree {
  import opened Results

  /** A value of the mapping: a scalar already turned into its text, or a
      nested mapping given as its ordered key/value pairs. */
  datatype Node = Leaf(text: string) | Branch(entries: seq<(string, Node)>)

  /** One key/value pair of a mapping. */
  type Entry = (string, Node)

  /** The value stored under `key`: the first pair that carries it. */
  function FindEntry(es: seq<Entry>, key: string): (r: Option<Node>)
    ensures r.None? <==> forall i :: 0 <= i < |es| ==> es[i].0 != key
    ensures r.Some? ==> exists i :: 0 <= i < |es| && es[i] == (key, r.value)
  {
    if |es| == 0 then None
    else if es[0].0 == key then Some(es[0].1)
    else
      var r := FindEntry(es[1..], key);
      assert r.Some? ==> exists i :: 1 <= i < |es| && es[i] == (key, r.value) by {
        if r.Some? {
          var i :| 0 <= i < |es[1..]| && es[1..][i] == (key, r.value);
          assert es[i + 1] == (key, r.value);
        }
      }
      r
  }

  /** What the dictionary access `d[k1][k2]...[kn]` yields, if it yields a
      scalar. */
  function Get(node: Node, keys: seq<string>): (r: Option<string>)
    decreases |keys|
  {
    match node
    case Leaf(s) => if |keys| == 0 then Some(s) else None
    case Branch(es) =>
      if |keys| == 0 then None
      else match FindEntry(es, keys[0])
        case None => None
        case Some(child) => Get(child, keys[1..])
  }

  /** No key occurs twice at this level (always true of a Python dict). */
  predicate DistinctKeys(es: seq<Entry>)
  {
    forall i, j :: 0 <= i < j < |es| ==> es[i].0 != es[j].0
  }

  /** Keys are distinct at every level of the mapping. */
  predicate UniqueKeys(es: seq<Entry>)
    decreases Branch(es)
  {
    && DistinctKeys(es)
    && forall i :: 0 <= i < |es| ==>
         match es[i].1
         case Leaf(_) => true
         case Branch(ces) => UniqueKeys(ces)
  }

  /** `keys` leads from the root of `es`, through nested mappings, to a
      scalar: the reference notion of a valid access path. */
  ghost predicate IsLeafPath(es: seq<Entry>, keys: seq<string>)
    decreases |keys|
  {
    && |keys| >= 1
    && exists i :: 0 <= i < |es| && es[i].0 == keys[0] &&
         match es[i].1
         case Leaf(_) => |keys| == 1
         case Branch(ces) => IsLeafPath(ces, keys[1..])
  }

  /** Number of scalars among the first `i` pairs of `es`, at any depth. */
  function LeafCount(es: seq<Entry>, i: nat): (r: nat)
    requires i <= |es|
    decreases Branch(es), i
  {
    if i == 0 then 0
    else LeafCount(es, i - 1) + match es[i - 1].1
      case Leaf(_) => 1
      case Branch(ces) => LeafCount(ces, |ces|)
  }

  /** Number of mappings in `es` (itself included) and below it. */
  function MappingCount(es: seq<Entry>): (r: nat)
    decreases Branch(es), |es| + 1
  {
    1 + NestedMappingCount(es, |es|)
  }

  /** Number of mappings nested in the first `i` pairs of `es`, at any depth. */
  function NestedMappingCount(es: seq<Entry>, i: nat): (r: nat)
    requires i <= |es|
    decreases Branch(es), i
  {
    if i == 0 then 0
    else NestedMappingCount(es, i - 1) + match es[i - 1].1
      case Leaf(_) => 0
      case Branch(ces) => MappingCount(ces)
  }

  /** For a real dictionary, a key chain is a valid access path exactly when
      indexing with it yields a scalar. */
  lemma {:induction false} LeafPathIffGet(es: seq<Entry>, keys: seq<string>)
    requires UniqueKeys(es)
    ensures IsLeafPath(es, keys) <==> Get(Branch(es), keys).Some?
    decreases |keys|
  {
    if |keys| >= 1 {
      match FindEntry(es, keys[0])
      case None =>
      case Some(child) =>
        var i :| 0 <= i < |es| && es[i] == (keys[0], child);
        assert forall j :: 0 <= j < |es| && es[j].0 == keys[0] ==> j == i;
        match child
        case Leaf(_) =>
        case Branch(ces) =>
          LeafPathIffGet(ces, keys[1..]);
    }
  }
}
